=== FILE: README.md ===
# Ledger core of a school finance tracker, in Dafny

The application keeps a ledger of income and expense transactions for a
small school. This project models its core as pure functions over
immutable records:

- the summary aggregator (`calculateStats`): total income, total expense,
  net balance, and the cash and transfer balances;
- the history view (`getFilteredData`): the `all` / `month` / `range`
  period filter, the period label and the newest-first sort;
- the ledger mutations: add (prepend), update by id (replace every match)
  and delete by id (drop every match), plus the dashboard's five most
  recent records;
- the transaction form as a state machine over its field values: the type
  switch, submission (validation, record construction, post-submit reset)
  and the merge of the fields a receipt reader extracted;
- the data the report exports are made of: the PDF's summary and detail
  tables, the spreadsheet rows and the spreadsheet file name.

Modules follow the source: `Types` (types.ts), `Constants` (constants.ts),
`Stats`, `Periods`, `DateSort`, `Ledger` (App.tsx), `Form`
(components/TransactionForm.tsx), `Export` (components/ReportExport.tsx).
`Seqs` holds the generic `filter` / summing `reduce`, `Strings` the
JavaScript string comparison and `startsWith`, `IsoDates` the link between
string order and calendar order, and `Scenarios` worked examples on
concrete dates.

Modelling choices:

- Amounts are `real`, so sums are exact.
- The record fields `type` and `method` are called `kind` and `payment`
  (both words are Dafny keywords). The method is an enumeration whose
  stored string is `MethodLabel`; the aggregator selects records by that
  string, as the source does.
- JavaScript's `<=` on strings is `Strings.StrLe`, a character-wise
  lexicographic order (Dafny's built-in `<` on sequences means "proper
  prefix", which is a different relation).
- The source sorts by `new Date(date).getTime()`; the model sorts by the
  date string. `IsoDates.CalendarDate` says which strings are real
  calendar dates: the `YYYY-MM-DD` shape, month 01 to 12 and a day that
  exists in that month of the proleptic Gregorian calendar. On those,
  `IsoDates.Timestamp` is the millisecond count of midnight UTC the
  engine assigns. `IsoDates.StringOrderIsChronological` proves that string
  order is timestamp order there. `IsoDates.SameDayIsSameDate` proves that
  equal timestamps mean equal strings, so the stable sort breaks ties the
  same way.
- The uuid generator, the current date, `Number(text)` (with `None` for
  `NaN`), `number.toString()` and the PDF's `$` + `toLocaleString()`
  formatting are parameters: `freshId`, `today`, `parse`, `show` and `money`.
- Amounts may be negative: `Transaction.amount` is an unconstrained number
  (types.ts:14) and the form accepts any number, negative ones included
  (components/TransactionForm.tsx:47,54,190-197).
- The form's inputs are constrained by the browser before `handleSubmit`
  runs: the date field is `type="date"` and `required`
  (components/TransactionForm.tsx:164,168), and the amount field is
  `type="number"`, `required` and `step="0.01"` (lines 190-197). A value
  the date field cannot hold (such as `15/03/2024` or `2024-02-30`) empties
  it, so the submit is blocked. The `step` may refuse an amount that is
  not a whole number of cents; since the field has no `min`, the step base
  comes from the input's `value` attribute, so whether it does depends on
  what that attribute last held. The model's `Form.Submit` is `handleSubmit` itself and
  does not repeat these checks (see "## Left out").
- An update replaces every record with the edited id, not just the first
  (App.tsx:50).

## Model

| member | source | states |
|---|---|---|
| Types.MethodLabel | types.ts:3-7 | each payment method's stored string: `'Efectivo'`, `'Transferencia'` and `'Otro'`; the three are distinct, as `MethodLabelRoundTrip` shows by reading each back to its own method |
| Types.MethodOfLabel | types.ts:3-7 | the three stored strings `'Efectivo'`, `'Transferencia'`, `'Otro'` and no other string name a payment method, and the method read back stores that same string |
| Seqs.Filter | App.tsx:55 | `Array.prototype.filter`: at most as long as its input and holding only accepted elements; `FilterMultiset` and `FilterMembership` show it keeps exactly the accepted elements with their multiplicity, and `FilterConcat` that it keeps their order |
| Seqs.SumBy | App.tsx:59-63 | the summing `reduce((acc, x) => acc + f(x), 0)`, a left fold from zero; `SumByConcat` shows it adds over concatenation and `SumByPermutation` that it depends only on the multiset |
| Seqs.Map | components/ReportExport.tsx:95 | `Array.prototype.map`: same length, and element `i` is `f` of input element `i` |
| Stats.Signed | App.tsx:62-63 | the reduce callback of the method balances: an income counts with its amount and an expense with its amount negated; `MethodBalancesAreSigned` states the balances it yields |
| Stats.CalculateStats | App.tsx:58-72 | for every input the net balance is total income minus total expense |
| Stats.StatsOfOne | App.tsx:58-72 | the summary of one record is its contribution: its amount to income or expense by kind, and its signed amount to the cash or transfer balance by method |
| Stats.StatsConcat | App.tsx:58-72 | the summary of a concatenation is the field-wise sum of the two summaries |
| Stats.StatsAppend | App.tsx:58-72 | appending a record adds exactly its contribution to each of the five figures |
| Stats.StatsIsSumOfContributions | App.tsx:58-72 | the filter-and-reduce aggregator equals the record-by-record sum of contributions on every input |
| Stats.IncomeCountsOnlyIncomes | App.tsx:59 | appending an expense leaves total income unchanged; appending an income raises it by exactly that amount |
| Stats.ExpenseCountsOnlyExpenses | App.tsx:60 | appending an income leaves total expense unchanged; appending an expense raises it by exactly that amount |
| Stats.MethodBalancesAreSigned | App.tsx:62-63 | the cash balance changes only with cash records and the transfer balance only with transfer records, up by an income and down by an expense |
| Stats.NetSplitsByMethod | App.tsx:62-68 | cash balance plus transfer balance plus the signed sum of `'Otro'` records is the net balance |
| Stats.CashPlusTransferIsNet | App.tsx:62-68 | cash plus transfer equals net exactly when the `'Otro'` records cancel out, and always when there are no `'Otro'` records |
| Stats.OtherIsInNoMethodBalance | App.tsx:62-68 | a single `'Otro'` income of 1 gives net balance 1 but cash and transfer balances 0, so the two balances need not add up to the net |
| Stats.StatsPermutation | App.tsx:58-72 | all five figures are unchanged by any reordering of the input |
| Ledger.Add | App.tsx:44-45 | the new record is at index 0 and every old record moves up one place unchanged |
| Ledger.Update | App.tsx:49-50 | the length is kept, exactly the records with the edited id are replaced, ids per position are kept, and an unknown id changes nothing |
| Ledger.Delete | App.tsx:54-55 | no record with the deleted id remains |
| Ledger.Recent | App.tsx:219 | the slice handed to the dashboard list is the first five records, or all of them when there are fewer |
| Ledger.UpdateIsIdempotent | App.tsx:50 | applying the same update twice is the same as applying it once |
| Ledger.DeleteKeepsOthers | App.tsx:55 | a record survives a delete exactly when it was present with another id, with all its occurrences |
| Ledger.DeleteUnknownIdIsNoOp | App.tsx:55 | deleting an id that no record has leaves the ledger unchanged |
| Ledger.DeleteConcat | App.tsx:55 | deleting distributes over concatenation, so the kept records stay in order |
| Ledger.DeleteUndoesAdd | App.tsx:44-56 | deleting the id of a just-added record gives what deleting it from the old ledger gives, and the old ledger itself when the id was fresh |
| Ledger.DeleteAfterUpdate | App.tsx:49-56 | deleting an id after updating that id is the same as deleting it without the update |
| Ledger.AddStats | App.tsx:44-72 | adding a record changes the summary by exactly that record's contribution |
| Ledger.RecentShowsLatestAdd | App.tsx:219 | after an add, the slice App.tsx:219 passes to the list starts with the new record and holds one more record, up to five |
| Ledger.RecentListShowsAdd | components/TransactionList.tsx:14 | the list re-sorts that slice newest first: the new record is always displayed, the display is a permutation of the slice, and the new record is displayed first exactly when no record of the slice is dated later |
| Strings.StrLe | App.tsx:83 | JavaScript's `a <= b` on strings: character-wise lexicographic order, a proper prefix first |
| Strings.StartsWith | App.tsx:80 | `s.startsWith(prefix)`: the prefix is no longer than `s` and is its initial segment |
| DateSort.Insert | App.tsx:88 | one step of the stable newest-first sort: the record goes before the first record dated no later than it |
| DateSort.SortNewestFirst | App.tsx:88 | the stable newest-first sort, as an insertion sort by date |
| DateSort.SortPair | App.tsx:88 | two records come out later date first, and in input order when neither date is later |
| DateSort.SortPermutes | App.tsx:88 | the sorted list is a permutation of its input |
| DateSort.SortIsNewestFirst | App.tsx:88 | the sorted list is ordered by date, newest first |
| DateSort.SortIsStable | App.tsx:88 | records of the same date keep their input order |
| DateSort.NewestFirstIsChronological | App.tsx:88 | on real calendar dates the newest-first order is non-increasing in the timestamps `new Date(..).getTime()` gives, the order the comparator asks for |
| IsoDates.StringOrderIsDayNumberOrder | App.tsx:83 | on strings of the `YYYY-MM-DD` shape, the string comparison the range filter performs is comparison of the numbers YYYYMMDD |
| IsoDates.StringOrderIsChronological | App.tsx:83-88 | on real calendar dates, `a <= b` on the strings holds exactly when `a`'s timestamp is at most `b`'s, so the filter's string order and the sort's timestamp order agree |
| IsoDates.SameDayIsSameDate | App.tsx:88 | two real calendar dates have the same timestamp exactly when they are the same string, so the comparator's ties are exactly the equal date strings |
| IsoDates.CalendarDate | App.tsx:88 | the date strings `new Date(..)` reads as a real day: `YYYY-MM-DD` with month 01 to 12 and a day that exists in that month, leap years by the Gregorian rule |
| IsoDates.Timestamp | App.tsx:88 | `new Date(date).getTime()` on a real calendar date: milliseconds from 1970-01-01 to midnight UTC of that day |
| IsoDates.EpochIsZero | App.tsx:88 | the timestamp of 1970-01-01 is 0, so `Timestamp` counts from the ECMAScript epoch |
| IsoDates.NextDayIsOneDayLater | App.tsx:88 | consecutive calendar days, also across the end of a month or a year, are exactly one day of milliseconds apart |
| Scenarios.CalendarExamples | App.tsx:88 | 2024-02-29 and 2024-03-01 are real dates; 2023-02-29, 2024-02-30, month 13 and month 00 are not |
| Periods.RangeActive | App.tsx:82 | the range filter applies only in range mode with both bounds non-empty |
| Periods.InPeriod | App.tsx:80-84 | the record test of each mode: every record in all mode, the `startsWith` test in month mode, and the inclusive string bounds in range mode once both bounds are set; `SelectKeepsPeriod` shows the selection is exactly the admitted records |
| Periods.Select | App.tsx:76-85 | the filtering step: the `startsWith` filter in month mode, the inclusive string range once both bounds are filled in, and no filtering otherwise |
| Periods.PeriodText | App.tsx:77-85 | the label: `Período: <month>`, `Desde <start> hasta <end>`, or `Histórico Completo` |
| Periods.SelectCons | App.tsx:79-85 | the filter decides each record on its own, in order |
| Periods.SelectKeepsPeriod | App.tsx:76-85 | the filter keeps each record the period admits with all its occurrences and drops every other |
| Periods.GetFilteredData | App.tsx:75-91 | the view is newest first and holds exactly the admitted records with their multiplicities: a permutation of the filtered subset |
| Periods.Membership | App.tsx:75-91 | a record is in the view exactly when it is in the ledger and the period admits it |
| Periods.MonthModeKeepsPrefix | App.tsx:79-81 | month mode keeps exactly the records whose date starts with the month text and labels the view `Período: <month>` |
| Periods.RangeModeIsInclusive | App.tsx:82-85 | with both bounds set, range mode keeps exactly the records with start <= date <= end, both bounds included, and labels the view `Desde <start> hasta <end>` |
| Periods.RangeModeIsChronological | App.tsx:82-85 | on real calendar dates, range mode keeps exactly the records whose timestamp lies between the two bounds' timestamps, both included |
| Periods.InactiveFilterKeepsAll | App.tsx:76-85 | in `all` mode, and in range mode with a blank bound, the view is a permutation of the whole ledger under the label `Histórico Completo` |
| Periods.ViewIsStable | App.tsx:88 | within one date the view lists records in ledger order |
| Periods.ViewStatsIgnoreOrder | App.tsx:88-94 | the summary of the sorted view equals the summary of the unsorted filtered subset |
| Scenarios.MonthFilterExample | App.tsx:79-90 | month `2024-03` over records of 2024-03-01, 2024-03-31 and 2024-04-01 yields exactly the two March records, 31 March first |
| Scenarios.RangeBoundaryExample | App.tsx:82-84 | the range 2024-01-10 to 2024-01-20 keeps a record of 2024-01-10 and never one of 2024-01-21 |
| Form.InitialForm | components/TransactionForm.tsx:15-20 | the blank form: an income in cash dated today, with the income default course and empty amount and description |
| Form.LoadForEdit | components/TransactionForm.tsx:25-34 | the form opened on a record: its kind, course, method, date and description, and its amount as text |
| Form.CourseList | components/TransactionForm.tsx:181-184 | the options the course selector offers: the expense categories for an expense, the courses for an income; never empty |
| Form.DefaultDescription | components/TransactionForm.tsx:56 | the description a record gets when the field is left empty: `Pago de cuota` for an income, `Gasto vario` for an expense; never empty |
| Form.DefaultCourse | constants.ts:1-34 | the course the form falls back to is on the offered list for the kind: `Sala 3` for an income, `Gasto General` for an expense |
| Form.ChangeType | components/TransactionForm.tsx:36-43 | switching the kind sets the kind, resets the course to that kind's default, and leaves amount, method, date and description alone |
| Form.Submit | components/TransactionForm.tsx:45-71 | a record is produced exactly when the amount text is non-empty and parses as a number (a rejected submit leaves the form as it was); the record copies date, kind, course and method, takes the parsed amount, keeps the edited id or takes the fresh one, and defaults an empty description by kind; after a create the amount and description are cleared and the course reset, after an edit the form is kept |
| Form.BlankFormIsRejected | components/TransactionForm.tsx:15-47 | a blank form cannot be submitted |
| Form.ResubmitAfterCreateIsRejected | components/TransactionForm.tsx:61-70 | after a successful create, submitting the reset form again produces no record |
| Form.EditRoundTrip | components/TransactionForm.tsx:25-57 | opening a record for editing and submitting it unchanged gives back the same record and leaves the form as loaded, when the amount survives its text round trip and the description is not empty |
| Form.MergeReceipt | components/TransactionForm.tsx:82-95 | a failed analysis changes nothing; otherwise each field is overwritten only by a truthy extracted value (an amount of 0 keeps the typed amount), a supplied kind also resets the course to that kind's default, and the method is never touched |
| Form.EmptyReceiptIsNoOp | components/TransactionForm.tsx:82-95 | a receipt supplying nothing truthy leaves the form unchanged |
| Form.ReceiptFillsRecord | components/TransactionForm.tsx:45-95 | a receipt with usable amount, date and description makes the next create-mode submit produce a record with those values and the fresh id |
| Export.PeriodOrDefault | components/ReportExport.tsx:14 | the report's period label is `"General"` when none is supplied and the supplied one otherwise |
| Export.TypeLabel | components/ReportExport.tsx:64 | the kind column: `Ingreso` for an income, `Egreso` for an expense |
| Export.KindOfLabel | components/ReportExport.tsx:64 | exactly the labels `Ingreso` and `Egreso` read back as a kind |
| Export.TypeLabelRoundTrip | components/ReportExport.tsx:64 | an income is labelled `Ingreso` and an expense `Egreso`, and the label reads back as that kind |
| Export.PdfStatsRows | components/ReportExport.tsx:40-46 | the PDF summary has exactly five two-cell rows, in the order income, expense, net, cash, transfer |
| Export.PdfDetailRow | components/ReportExport.tsx:62-69 | one PDF detail row: date, kind label, course, description, method string and formatted amount |
| Export.PdfDetailRowReadsBack | components/ReportExport.tsx:62-69 | a detail row has six cells from which date, kind, course, description and method read back unchanged, and the amount cell is the formatted amount |
| Export.DetailRowsAgree | components/ReportExport.tsx:62-102 | the PDF detail row and the sheet data row of a transaction carry the same date, kind, course, description and method texts |
| Export.PdfDetailRows | components/ReportExport.tsx:62-69 | the PDF detail table has one row per transaction, in input order |
| Export.SheetDataRow | components/ReportExport.tsx:95-102 | a transaction's sheet row: the columns Fecha, Tipo, Curso, Descripcion, Metodo and Monto, the amount kept as a number |
| Export.SheetSummaryRows | components/ReportExport.tsx:104-110 | the five rows above the data: period label, income, expense, balance and an empty spacer |
| Export.SheetRows | components/ReportExport.tsx:95-113 | the array handed to `json_to_sheet` begins with exactly the five summary rows (period label, income, expense, net balance and an empty spacer), followed by one row per transaction in input order |
| Export.SheetRowRoundTrip | components/ReportExport.tsx:95-102 | a transaction's sheet row loses nothing but the id: date, kind, course, description, method and amount read back unchanged |
| Export.SheetRecoversTransactions | components/ReportExport.tsx:95-113 | every exported transaction reads back from the array handed to `json_to_sheet`, at its position after the five summary rows |
| Export.SummariesAgree | components/ReportExport.tsx:40-110 | the PDF summary and the sheet summary report the same income, expense and net balance, and for the exported records' own summary the sheet's balance row is income minus expense |
| Export.Sanitize | components/ReportExport.tsx:116 | the sanitised label has the same length, no `:` or space, `_` where those were, and every other character unchanged |
| Export.SanitizeFixesExactlySafeLabels | components/ReportExport.tsx:116 | sanitising is the identity exactly on labels without `:` and spaces, and sanitising twice is sanitising once |
| Export.ExcelFileName | components/ReportExport.tsx:116 | the file name is `reporte-`, the sanitised label and `.xlsx`, 13 characters longer than the label, with no `:` or space in the label part |

## Left out

- Persistence: loading from and saving to `localStorage` as JSON (App.tsx:31-42) is browser I/O; the model's ledger is the in-memory sequence.
- The `alert` confirmations, `setEditingTransaction(null)`, view switching and the rest of the React state machinery are user-interface plumbing.
- `handleAudioSummary` (App.tsx:97-117): text-to-speech and audio playback through an external service.
- services/geminiService.ts and components/AIAssistant.tsx: every operation is a call into an external generative-AI service or the browser audio API. The receipt reader's answer enters the model as the `Receipt` given to `Form.MergeReceipt`.
- The jsPDF, autoTable and XLSX library calls, page layout, header texts and page footers of the exports: foreign library code. The PDF file name embeds the current date and is not modelled.
- The header row `json_to_sheet` generates (`skipHeader: false`, components/ReportExport.tsx:113), with its columns in order of first appearance (Fecha, Tipo, Monto, Curso, Descripcion, Metodo), is library behaviour: `Export.SheetRows` is the array of row objects the library receives, and the worksheet layout is not modelled.
- Number formatting (`toLocaleString`, `toString`) and number parsing (`Number`) are parameters, not implementations; floating-point rounding is not modelled (amounts are exact reals). StatsPermutation and ViewStatsIgnoreOrder hold for exact reals only: in doubles the order of a sum can change its last bits ((0.1+0.2)+0.3 differs from (0.3+0.2)+0.1), so the stats App.tsx:94 computes over the sorted view may differ slightly from those of the unsorted selection.
- SortNewestFirst: on date strings that are not real calendar dates the model still orders by the string, while the engine gives them either `NaN` (an invalid date such as `2024-13-01`; the sort order is then implementation-defined) or a timestamp of its own. V8 rolls `2024-02-30` over to the timestamp of 2024-03-01, so a ledger [2024-02-30, 2024-03-01] keeps its order in the source and is swapped in the model. Engines also parse other forms such as `2024/03/15` or `2024-3-5`. The form's date field (`type="date"`, `required`, components/TransactionForm.tsx:164,168) accepts only valid HTML date strings, so with a four-digit year it stores only real `YYYY-MM-DD` dates, and a receipt date it cannot hold empties it and blocks the submit. It has no `max`, however, and an HTML date string may have more than four year digits: `20245-03-01` is accepted and stored. It is not of the `YYYY-MM-DD` shape, and the model sorts it between 2024 and 2025 by string order, where the engine's `new Date(..).getTime()` gives it `NaN` or a timestamp of its own, not a slot between those years.
- Submit: models `handleSubmit` (components/TransactionForm.tsx:45-71) alone. The browser's constraint validation runs first and blocks the submit when the date field or the amount field is empty, and may block it when the amount does not fit the field's `step="0.01"` from its step base (lines 164,168,190-197). The model books such a form, for example one with date "", where the browser would refuse it. HTML constraint validation is browser behaviour outside the source.
- ReceiptFillsRecord: the receipt's amount (`data.amount.toString()`) and date (line 83) reach the record only if they also pass that browser validation. A date that is not a valid date string blocks the submit; an amount such as 12.345 that is not in whole cents may be refused by the field's `step`, depending on its step base. The lemma states only what `handleSubmit` does with them.
- NewestFirstIsChronological: stated for real calendar dates only, because other strings have no timestamp in the model.
- SameDayIsSameDate: stated for real calendar dates only; `2024-02-30` and `2024-03-01` share a timestamp in V8.
- StringOrderIsChronological: stated for real calendar dates only, because other strings have no timestamp in the model.
- RangeModeIsChronological: stated for real calendar dates only; the filter itself compares strings and is modelled exactly on every input.
- String comparison is by Unicode code point, where JavaScript compares UTF-16 code units; the two differ only for characters outside the Basic Multilingual Plane, which dates do not contain.
- `Form.MergeReceipt`: an extracted type is taken to be `INCOME` or `EXPENSE` (the reader's response schema allows no other value), and an extracted amount cannot be `NaN` (JSON has no `NaN`).
- The per-field `onChange` setters of the form inputs are single assignments and are not modelled.
- The optional `category` field of a transaction is never written and is not modelled.
- components/DashboardStats.tsx and components/TransactionList.tsx: presentation only. The one computation in them, the list re-sorting what it receives (components/TransactionList.tsx:14), is `SortNewestFirst` again and is stated for the dashboard slice by `Ledger.RecentListShowsAdd`.
- The race between an in-flight receipt analysis and the user's edits is about concurrency, not sequential behaviour.

=== FILE: constants.dfy ===
/** The fixed option lists of the transaction form. */
module Constants {

  /** The courses an income can be booked to. */
  const COURSES: seq<string> := [
    "Sala 3",
    "Sala 4",
    "Sala 5",
    "Primer Grado",
    "Segundo Grado",
    "Tercer Grado",
    "Cuarto Grado",
    "Quinto Grado",
    "Sexto Grado",
    "Séptimo Grado",
    "1° 1° CBC",
    "1° 2° CBC",
    "2° 1° CBC",
    "3° 1° CBC",
    "3° 2° CBC",
    "4 CO",
    "5 CO",
    "General / Administrativo"
  ]

  /** The categories an expense can be booked to. */
  const EXPENSE_CATEGORIES: seq<string> := [
    "Gasto General",
    "Material Didáctico",
    "Mantenimiento y Reparaciones",
    "Limpieza e Higiene",
    "Servicios (Luz, Gas, Internet)",
    "Sueldos y Honorarios",
    "Insumos Administrativos",
    "Eventos y Actos",
    "Mobiliario y Equipamiento",
    "Impuestos y Tasas",
    "Otros"
  ]
}

=== FILE: datesort.dfy ===
/** The newest-first ordering of a transaction list (`sort` by descending
    date timestamp). Dates are compared as strings; on real calendar dates
    in the `YYYY-MM-DD` form that is the order of their timestamps. The
    JavaScript sort is stable, so records with the same date keep their
    relative order; the model is a stable insertion sort. */
module DateSort {
  import opened Types
  import opened Strings
  import opened Seqs
  import opened IsoDates

  /** Every record is dated no earlier than every record after it. */
  predicate NewestFirst(s: seq<Transaction>)
  {
    forall i, j :: 0 <= i < j < |s| ==> StrLe(s[j].date, s[i].date)
  }

  /** Puts `x` in front of the first record dated no later than it. */
  function Insert(x: Transaction, s: seq<Transaction>): seq<Transaction>
  {
    if |s| == 0 then [x]
    else if StrLe(s[0].date, x.date) then [x] + s
    else [s[0]] + Insert(x, s[1..])
  }

  function SortNewestFirst(s: seq<Transaction>): seq<Transaction>
  {
    if |s| == 0 then [] else Insert(s[0], SortNewestFirst(s[1..]))
  }

  lemma {:induction false} InsertPermutes(x: Transaction, s: seq<Transaction>)
    ensures multiset(Insert(x, s)) == multiset(s) + multiset{x}
  {
    if |s| > 0 && !StrLe(s[0].date, x.date) {
      InsertPermutes(x, s[1..]);
      assert s == [s[0]] + s[1..];
    }
  }

  lemma {:induction false} InsertKeepsOrder(x: Transaction, s: seq<Transaction>)
    requires NewestFirst(s)
    ensures NewestFirst(Insert(x, s))
  {
    if |s| == 0 {
    } else if StrLe(s[0].date, x.date) {
      forall j | 0 <= j < |s|
        ensures StrLe(s[j].date, x.date)
      {
        if j > 0 {
          StrLeTransitive(s[j].date, s[0].date, x.date);
        }
      }
      PrependNewest(x, s);
    } else {
      StrLeTotal(s[0].date, x.date);
      InsertKeepsOrder(x, s[1..]);
      InsertPermutes(x, s[1..]);
      var tail := Insert(x, s[1..]);
      forall j | 0 <= j < |tail|
        ensures StrLe(tail[j].date, s[0].date)
      {
        assert tail[j] in multiset(tail);
        assert tail[j] == x || tail[j] in s[1..];
      }
      PrependNewest(s[0], tail);
    }
  }

  /** A record dated no earlier than the head of a newest-first list can go in front. */
  lemma PrependNewest(x: Transaction, s: seq<Transaction>)
    requires NewestFirst(s)
    requires forall j :: 0 <= j < |s| ==> StrLe(s[j].date, x.date)
    ensures NewestFirst([x] + s)
  {
    var r := [x] + s;
    forall i, j | 0 <= i < j < |r|
      ensures StrLe(r[j].date, r[i].date)
    {
      assert r[j] == s[j - 1];
      if i > 0 {
        assert r[i] == s[i - 1];
      }
    }
  }

  /** The sorted list is a permutation of its input. */
  lemma {:induction false} SortPermutes(s: seq<Transaction>)
    ensures multiset(SortNewestFirst(s)) == multiset(s)
  {
    if |s| > 0 {
      SortPermutes(s[1..]);
      InsertPermutes(s[0], SortNewestFirst(s[1..]));
      assert s == [s[0]] + s[1..];
    }
  }

  /** The sorted list is newest first. */
  lemma {:induction false} SortIsNewestFirst(s: seq<Transaction>)
    ensures NewestFirst(SortNewestFirst(s))
  {
    if |s| > 0 {
      SortIsNewestFirst(s[1..]);
      InsertKeepsOrder(s[0], SortNewestFirst(s[1..]));
    }
  }

  /** Two records: the later one goes first, and on equal dates they keep their order. */
  lemma SortPair(x: Transaction, y: Transaction)
    ensures SortNewestFirst([x, y]) == if StrLe(y.date, x.date) then [x, y] else [y, x]
  {
    assert [x, y][0] == x && [x, y][1..] == [y] && [y][1..] == [];
    assert SortNewestFirst([y]) == Insert(y, []) == [y];
    assert SortNewestFirst([x, y]) == Insert(x, [y]);
    if !StrLe(y.date, x.date) {
      assert Insert(x, [y]) == [y] + Insert(x, []);
    }
  }

  /** The records of `s` dated exactly `d`, in order. */
  function OnDate(s: seq<Transaction>, d: string): seq<Transaction>
  {
    Filter(s, (t: Transaction) => t.date == d)
  }

  lemma {:induction false} InsertOnDate(x: Transaction, s: seq<Transaction>, d: string)
    ensures OnDate(Insert(x, s), d) == if x.date == d then [x] + OnDate(s, d) else OnDate(s, d)
  {
    if |s| == 0 {
    } else if StrLe(s[0].date, x.date) {
      assert ([x] + s)[0] == x && ([x] + s)[1..] == s;
    } else {
      StrLeReflexive(x.date);
      var r := [s[0]] + Insert(x, s[1..]);
      assert r[0] == s[0] && r[1..] == Insert(x, s[1..]);
      InsertOnDate(x, s[1..], d);
    }
  }

  /** The sort is stable: the records of any one date keep their input order. */
  lemma {:induction false} SortIsStable(s: seq<Transaction>, d: string)
    ensures OnDate(SortNewestFirst(s), d) == OnDate(s, d)
  {
    if |s| > 0 {
      SortIsStable(s[1..], d);
      InsertOnDate(s[0], SortNewestFirst(s[1..]), d);
    }
  }

  /** On real calendar dates, newest first by string is newest first by
      the timestamps the comparator subtracts. */
  lemma NewestFirstIsChronological(s: seq<Transaction>)
    requires forall i :: 0 <= i < |s| ==> CalendarDate(s[i].date)
    requires NewestFirst(s)
    ensures forall i, j :: 0 <= i < j < |s| ==> Timestamp(s[j].date) <= Timestamp(s[i].date)
  {
    forall i, j | 0 <= i < j < |s|
      ensures Timestamp(s[j].date) <= Timestamp(s[i].date)
    {
      StringOrderIsChronological(s[j].date, s[i].date);
    }
  }
}

=== FILE: export.dfy ===
/** The data the report exports are built from: the PDF's summary and
    detail tables, the spreadsheet's rows and the spreadsheet's file name.
    `money` stands for the PDF's `$` + locale number formatting. */
module Export {
  import opened Wrappers
  import opened Types
  import opened Seqs
  import opened Stats

  /** The report's period label; the component falls back to `"General"` when none is given. */
  function PeriodOrDefault(periodText: Option<string>): (r: string)
    ensures periodText.None? ==> r == "General"
    ensures periodText.Some? ==> r == periodText.value
  {
    periodText.GetOr("General")
  }

  /** The kind column: `'Ingreso'` for an income, `'Egreso'` otherwise. */
  function TypeLabel(k: TxType): string
  {
    if k == Income then "Ingreso" else "Egreso"
  }

  /** Reads a kind column back. */
  function KindOfLabel(s: string): (r: Option<TxType>)
    ensures r.Some? <==> s == "Ingreso" || s == "Egreso"
  {
    if s == "Ingreso" then Some(Income) else if s == "Egreso" then Some(Expense) else None
  }

  lemma TypeLabelRoundTrip(k: TxType)
    ensures KindOfLabel(TypeLabel(k)) == Some(k)
  {
  }

  /** The five figures in the order the PDF lists them. */
  function ReportOrder(s: SummaryStats): seq<real>
  {
    [s.totalIncome, s.totalExpense, s.netBalance, s.cashBalance, s.transferBalance]
  }

  /** The PDF summary table: five (concept, amount) rows in a fixed order. */
  function PdfStatsRows(s: SummaryStats, money: real -> string): (rows: seq<seq<string>>)
    ensures |rows| == 5
    ensures forall i :: 0 <= i < 5 ==> |rows[i]| == 2 && rows[i][1] == money(ReportOrder(s)[i])
  {
    [ ["Ingresos Totales", money(s.totalIncome)],
      ["Egresos Totales", money(s.totalExpense)],
      ["Balance Neto", money(s.netBalance)],
      ["Saldo Efectivo (Período)", money(s.cashBalance)],
      ["Saldo Transferencias (Período)", money(s.transferBalance)] ]
  }

  /** One PDF detail row: date, kind, course, description, method, amount. */
  function PdfDetailRow(t: Transaction, money: real -> string): seq<string>
  {
    [t.date, TypeLabel(t.kind), t.course, t.description, MethodLabel(t.payment), money(t.amount)]
  }

  /** A PDF detail row shows every field but the id: the texts as they are,
      the kind and the method as labels that read back to them, and the
      formatted amount. */
  lemma PdfDetailRowReadsBack(t: Transaction, money: real -> string)
    ensures var row := PdfDetailRow(t, money);
      && |row| == 6
      && row[0] == t.date && KindOfLabel(row[1]) == Some(t.kind) && row[2] == t.course
      && row[3] == t.description && MethodOfLabel(row[4]) == Some(t.payment)
      && row[5] == money(t.amount)
  {
    TypeLabelRoundTrip(t.kind);
    MethodLabelRoundTrip(t.payment);
  }

  /** The PDF detail table: one row per transaction, in input order. */
  function PdfDetailRows(txs: seq<Transaction>, money: real -> string): (rows: seq<seq<string>>)
    ensures |rows| == |txs|
    ensures forall i :: 0 <= i < |txs| ==> rows[i] == PdfDetailRow(txs[i], money)
  {
    Map(txs, (t: Transaction) => PdfDetailRow(t, money))
  }

  /** One spreadsheet row: the columns Fecha, Tipo, Curso, Descripcion,
      Metodo and Monto, each possibly absent (an empty cell). */
  datatype SheetRow = SheetRow(
    fecha: Option<string>,
    tipo: Option<string>,
    curso: Option<string>,
    descripcion: Option<string>,
    metodo: Option<string>,
    monto: Option<real>)

  /** The spreadsheet row of one transaction; the amount stays a number. */
  function SheetDataRow(t: Transaction): SheetRow
  {
    SheetRow(Some(t.date), Some(TypeLabel(t.kind)), Some(t.course), Some(t.description),
             Some(MethodLabel(t.payment)), Some(t.amount))
  }

  /** The five rows above the data: the period, income, expense, balance and a spacer. */
  function SheetSummaryRows(s: SummaryStats, periodText: string): seq<SheetRow>
  {
    [ SheetRow(Some("RESUMEN PERIODO:"), Some(periodText), None, None, None, None),
      SheetRow(Some("Ingresos:"), None, None, None, None, Some(s.totalIncome)),
      SheetRow(Some("Egresos:"), None, None, None, None, Some(s.totalExpense)),
      SheetRow(Some("Balance:"), None, None, None, None, Some(s.netBalance)),
      SheetRow(Some(""), None, None, None, None, None) ]
  }

  /** The sheet: exactly five summary rows, then one row per transaction in input order. */
  function SheetRows(txs: seq<Transaction>, s: SummaryStats, periodText: string): (rows: seq<SheetRow>)
    ensures |rows| == 5 + |txs|
    ensures rows[0].tipo == Some(periodText)
    ensures rows[1].monto == Some(s.totalIncome)
    ensures rows[2].monto == Some(s.totalExpense)
    ensures rows[3].monto == Some(s.netBalance)
    ensures rows[4] == SheetRow(Some(""), None, None, None, None, None)
    ensures rows[..5] == SheetSummaryRows(s, periodText)
    ensures forall i :: 0 <= i < |txs| ==> rows[5 + i] == SheetDataRow(txs[i])
  {
    SheetSummaryRows(s, periodText) + Map(txs, SheetDataRow)
  }

  /** Reads a transaction back from its spreadsheet row, given the id the sheet does not carry. */
  function RecordOfSheetRow(row: SheetRow, id: string): Option<Transaction>
  {
    if row.fecha.None? || row.tipo.None? || row.curso.None? || row.descripcion.None?
       || row.metodo.None? || row.monto.None? then None
    else match (KindOfLabel(row.tipo.value), MethodOfLabel(row.metodo.value))
      case (Some(k), Some(m)) =>
        Some(Transaction(id, row.fecha.value, row.curso.value, k, row.monto.value, m, row.descripcion.value))
      case _ => None
  }

  /** A data row loses nothing but the id. */
  lemma SheetRowRoundTrip(t: Transaction)
    ensures RecordOfSheetRow(SheetDataRow(t), t.id) == Some(t)
  {
    TypeLabelRoundTrip(t.kind);
    MethodLabelRoundTrip(t.payment);
  }

  /** The PDF and the spreadsheet show a transaction with the same date,
      kind, course, description and method texts. */
  lemma DetailRowsAgree(t: Transaction, money: real -> string)
    ensures var row, sheet := PdfDetailRow(t, money), SheetDataRow(t);
      [sheet.fecha, sheet.tipo, sheet.curso, sheet.descripcion, sheet.metodo]
        == [Some(row[0]), Some(row[1]), Some(row[2]), Some(row[3]), Some(row[4])]
  {
  }

  /** Every exported transaction can be read back from the sheet, at its position after the summary. */
  lemma SheetRecoversTransactions(txs: seq<Transaction>, s: SummaryStats, periodText: string)
    ensures forall i :: 0 <= i < |txs| ==> RecordOfSheetRow(SheetRows(txs, s, periodText)[5 + i], txs[i].id) == Some(txs[i])
  {
    forall i | 0 <= i < |txs|
      ensures RecordOfSheetRow(SheetRows(txs, s, periodText)[5 + i], txs[i].id) == Some(txs[i])
    {
      SheetRowRoundTrip(txs[i]);
    }
  }

  /** The PDF summary and the spreadsheet summary report the same income,
      expense and balance, and when they summarise the exported records the
      sheet's balance row is its income row minus its expense row. */
  lemma SummariesAgree(s: SummaryStats, txs: seq<Transaction>, periodText: string, money: real -> string)
    ensures forall i :: 1 <= i <= 3 ==>
      SheetRows(txs, s, periodText)[i].monto.Some?
      && PdfStatsRows(s, money)[i - 1][1] == money(SheetRows(txs, s, periodText)[i].monto.value)
    ensures s == CalculateStats(txs) ==>
      var rows := SheetRows(txs, s, periodText);
      rows[3].monto.value == rows[1].monto.value - rows[2].monto.value
  {
  }

  predicate Unsafe(c: char) { c == ':' || c == ' ' }

  /** `periodText.replace(/[: ]/g, '_')`. */
  function Sanitize(p: string): (r: string)
    ensures |r| == |p|
    ensures forall i :: 0 <= i < |r| ==> !Unsafe(r[i])
    ensures forall i :: 0 <= i < |p| && !Unsafe(p[i]) ==> r[i] == p[i]
    ensures forall i :: 0 <= i < |p| && Unsafe(p[i]) ==> r[i] == '_'
  {
    seq(|p|, i requires 0 <= i < |p| => if p[i] == ':' || p[i] == ' ' then '_' else p[i])
  }

  /** Sanitising leaves a label without colons and spaces as it is, and only such a label. */
  lemma SanitizeFixesExactlySafeLabels(p: string)
    ensures Sanitize(p) == p <==> forall i :: 0 <= i < |p| ==> !Unsafe(p[i])
    ensures Sanitize(Sanitize(p)) == Sanitize(p)
  {
    if Sanitize(p) == p {
      forall i | 0 <= i < |p| ensures !Unsafe(p[i]) {
        assert Sanitize(p)[i] == p[i];
      }
    }
  }

  /** The spreadsheet's file name: `reporte-`, the sanitised label, `.xlsx`. */
  function ExcelFileName(periodText: string): (name: string)
    ensures |name| == |periodText| + 13
    ensures name[..8] == "reporte-" && name[|name| - 5..] == ".xlsx"
    ensures name[8..|name| - 5] == Sanitize(periodText)
    ensures forall i :: 8 <= i < |name| - 5 ==> !Unsafe(name[i])
  {
    "reporte-" + Sanitize(periodText) + ".xlsx"
  }
}

=== FILE: form.dfy ===
/** The transaction form as a state machine over its field values: its
    initial and edit-mode contents, the type switch, submission (validation,
    record construction and the post-submit reset) and the merge of the
    fields a receipt reader extracted. The uuid generator, `Number(..)` and
    `number.toString()` are passed in: `freshId`, `parse` (with `None` for
    `NaN`) and `show`. */
module Form {
  import opened Wrappers
  import opened Types
  import opened Constants

  /** The options the course selector offers for a kind. */
  function CourseList(k: TxType): (r: seq<string>)
    ensures |r| > 0
  {
    if k == Expense then EXPENSE_CATEGORIES else COURSES
  }

  /** The course the form falls back to for a kind: the head of its list. */
  function DefaultCourse(k: TxType): (c: string)
    ensures c in CourseList(k)
    ensures k == Income ==> c == "Sala 3"
    ensures k == Expense ==> c == "Gasto General"
  {
    if k == Expense then EXPENSE_CATEGORIES[0] else COURSES[0]
  }

  /** The description a record gets when the description field is left empty. */
  function DefaultDescription(k: TxType): (d: string)
    ensures d != ""
  {
    if k == Income then "Pago de cuota" else "Gasto vario"
  }

  /** The form's field values; the amount is the raw text of its input. */
  datatype FormState = FormState(
    kind: TxType,
    course: string,
    amount: string,
    payment: PaymentMethod,
    date: string,
    description: string)

  /** A blank form: an income in cash, on `today`. */
  function InitialForm(today: string): (r: FormState)
    ensures r.kind == Income && r.course == DefaultCourse(r.kind) && r.payment == Cash
    ensures r.amount == "" && r.description == "" && r.date == today
  {
    FormState(Income, COURSES[0], "", Cash, today, "")
  }

  /** The form opened on an existing record. */
  function LoadForEdit(t: Transaction, show: real -> string): FormState
  {
    FormState(t.kind, t.course, show(t.amount), t.payment, t.date, t.description)
  }

  /** `handleTypeChange`: switching the kind resets the course to the new
      kind's default and touches nothing else. */
  function ChangeType(f: FormState, k: TxType): (r: FormState)
    ensures r.kind == k && r.course == DefaultCourse(k) && r.course in CourseList(r.kind)
    ensures r.amount == f.amount && r.payment == f.payment
    ensures r.date == f.date && r.description == f.description
  {
    f.(kind := k, course := if k == Expense then EXPENSE_CATEGORIES[0] else COURSES[0])
  }

  /** The record produced, if any, and the form's contents afterwards. */
  datatype SubmitOutcome = SubmitOutcome(record: Option<Transaction>, form: FormState)

  /** `handleSubmit`. An empty amount or one that is not a number blocks the
      submission and leaves the form as it was. Otherwise the record takes
      the form's fields and the parsed amount (a negative amount is not
      rejected), keeps the edited record's id or takes `freshId`, and gets a
      default description when the field is empty. After creating a record
      the form clears amount and description and resets the course; after
      an edit it is left alone. */
  function Submit(f: FormState, initialData: Option<Transaction>, freshId: string,
                  parse: string -> Option<real>): (r: SubmitOutcome)
    ensures r.record.Some? <==> f.amount != "" && parse(f.amount).Some?
    ensures r.record.None? ==> r.form == f
    ensures r.record.Some? ==>
      && r.record.value.id == (if initialData.Some? then initialData.value.id else freshId)
      && r.record.value.date == f.date
      && r.record.value.kind == f.kind
      && r.record.value.course == f.course
      && r.record.value.amount == parse(f.amount).value
      && r.record.value.payment == f.payment
      && r.record.value.description == (if f.description != "" then f.description else DefaultDescription(f.kind))
    ensures r.record.Some? && initialData.Some? ==> r.form == f
    ensures r.record.Some? && initialData.None? ==>
      && r.form.amount == "" && r.form.description == ""
      && r.form.course == DefaultCourse(f.kind)
      && r.form.kind == f.kind && r.form.payment == f.payment && r.form.date == f.date
  {
    if f.amount == "" || parse(f.amount).None? then
      SubmitOutcome(None, f)
    else
      var t := Transaction(
        if initialData.Some? then initialData.value.id else freshId,
        f.date,
        f.course,
        f.kind,
        parse(f.amount).value,
        f.payment,
        if f.description != "" then f.description
        else if f.kind == Income then "Pago de cuota" else "Gasto vario");
      var after :=
        if initialData.Some? then f
        else f.(amount := "", description := "",
                course := if f.kind == Income then COURSES[0] else EXPENSE_CATEGORIES[0]);
      SubmitOutcome(Some(t), after)
  }

  /** A blank form cannot be submitted. */
  lemma BlankFormIsRejected(today: string, initialData: Option<Transaction>,
                                               freshId: string, parse: string -> Option<real>)
    ensures Submit(InitialForm(today), initialData, freshId, parse).record.None?
  {
  }

  /** After a successful create, submitting the reset form again is rejected,
      so one click books one record. */
  lemma ResubmitAfterCreateIsRejected(f: FormState, freshId: string, nextId: string,
                                                         parse: string -> Option<real>)
    requires Submit(f, None, freshId, parse).record.Some?
    ensures Submit(Submit(f, None, freshId, parse).form, None, nextId, parse).record.None?
  {
  }

  /** Opening a record for editing and submitting unchanged gives the same
      record back, provided the amount survives its text round trip and the
      description is not empty (an empty one would be replaced by the default). */
  lemma EditRoundTrip(t: Transaction, freshId: string, show: real -> string,
                                         parse: string -> Option<real>)
    requires show(t.amount) != "" && parse(show(t.amount)) == Some(t.amount)
    requires t.description != ""
    ensures Submit(LoadForEdit(t, show), Some(t), freshId, parse).record == Some(t)
    ensures Submit(LoadForEdit(t, show), Some(t), freshId, parse).form == LoadForEdit(t, show)
  {
  }

  /** What a receipt reader returned: a partial record. The kind is read as
      one of the two transaction types (the reader's response schema admits
      no other value). */
  datatype Receipt = Receipt(
    amount: Option<real>,
    date: Option<string>,
    description: Option<string>,
    kind: Option<TxType>)

  /** A JavaScript truthiness test on each extracted field: `0` and `""` count as absent. */
  predicate AmountGiven(x: Receipt) { x.amount.Some? && x.amount.value != 0.0 }

  predicate DateGiven(x: Receipt) { x.date.Some? && x.date.value != "" }

  predicate DescriptionGiven(x: Receipt) { x.description.Some? && x.description.value != "" }

  /** Merges a receipt analysis into the form; `None` is a failed analysis,
      which leaves the form untouched. Each field is overwritten only when the
      receipt supplies a truthy value; a supplied kind also resets the course
      to that kind's default. The payment method is never touched. */
  function MergeReceipt(f: FormState, analysis: Option<Receipt>, show: real -> string): (r: FormState)
    ensures analysis.None? ==> r == f
    ensures r.payment == f.payment
    ensures analysis.Some? ==>
      var x := analysis.value;
      && r.amount == (if AmountGiven(x) then show(x.amount.value) else f.amount)
      && r.date == (if DateGiven(x) then x.date.value else f.date)
      && r.description == (if DescriptionGiven(x) then x.description.value else f.description)
      && r.kind == (if x.kind.Some? then x.kind.value else f.kind)
      && r.course == (if x.kind.Some? then DefaultCourse(x.kind.value) else f.course)
  {
    match analysis
    case None => f
    case Some(x) =>
      var f1 := if x.amount.Some? && x.amount.value != 0.0 then f.(amount := show(x.amount.value)) else f;
      var f2 := if x.date.Some? && x.date.value != "" then f1.(date := x.date.value) else f1;
      var f3 := if x.description.Some? && x.description.value != "" then f2.(description := x.description.value) else f2;
      if x.kind.Some? then ChangeType(f3, x.kind.value) else f3
  }

  /** A receipt that supplies nothing truthy leaves the form as it was; in
      particular an extracted amount of zero keeps the typed amount. */
  lemma EmptyReceiptIsNoOp(f: FormState, x: Receipt, show: real -> string)
    requires !AmountGiven(x) && !DateGiven(x) && !DescriptionGiven(x) && x.kind.None?
    ensures MergeReceipt(f, Some(x), show) == f
  {
  }

  /** A receipt with a usable amount fills a form that then submits to a
      record carrying the receipt's amount, date and description. */
  lemma ReceiptFillsRecord(f: FormState, x: Receipt, freshId: string,
                                              show: real -> string, parse: string -> Option<real>)
    requires AmountGiven(x) && DateGiven(x) && DescriptionGiven(x)
    requires show(x.amount.value) != "" && parse(show(x.amount.value)) == Some(x.amount.value)
    ensures var out := Submit(MergeReceipt(f, Some(x), show), None, freshId, parse);
      && out.record.Some?
      && out.record.value.amount == x.amount.value
      && out.record.value.date == x.date.value
      && out.record.value.description == x.description.value
      && out.record.value.id == freshId
  {
  }
}

=== FILE: isodates.dfy ===
/** Calendar dates as the ledger stores them, zero-padded `YYYY-MM-DD`
    strings. The sort compares the timestamps `new Date(..)` gives such
    dates and the range filter compares the strings; this module shows that
    on real calendar dates the two orders agree. */
module IsoDates {
  import opened Strings

  predicate IsDigit(c: char) { '0' <= c <= '9' }

  predicate IsDigits(s: string)
  {
    forall i :: 0 <= i < |s| ==> IsDigit(s[i])
  }

  function Pow10(n: nat): (p: nat)
    ensures p >= 1
  {
    if n == 0 then 1 else 10 * Pow10(n - 1)
  }

  function DigitValue(c: char): (d: nat)
    requires IsDigit(c)
    ensures d < 10
  {
    (c as int) - ('0' as int)
  }

  /** The decimal value of a digit string. */
  function Num(s: string): nat
    requires IsDigits(s)
  {
    if |s| == 0 then 0 else 10 * Num(s[..|s| - 1]) + DigitValue(s[|s| - 1])
  }

  lemma {:induction false} NumBound(s: string)
    requires IsDigits(s)
    ensures Num(s) < Pow10(|s|)
  {
    if |s| > 0 {
      NumBound(s[..|s| - 1]);
    }
  }

  /** On digit strings of one length, string order is numeric order and
      equal values mean equal strings. */
  lemma {:induction false} DigitOrderIsNumeric(a: string, b: string)
    requires IsDigits(a) && IsDigits(b) && |a| == |b|
    ensures StrLe(a, b) <==> Num(a) <= Num(b)
    ensures a == b <==> Num(a) == Num(b)
  {
    if |a| > 0 {
      var n := |a| - 1;
      var a0, b0 := a[..n], b[..n];
      assert IsDigits(a0) && IsDigits(b0);
      DigitOrderIsNumeric(a0, b0);
      var x, y := a[n], b[n];
      assert a == a0 + [x] && b == b0 + [y];
      StrLeConcat(a0, [x], b0, [y]);
      SingleCharOrder(x, y);
      AppendDigit(Num(a0), Num(b0), DigitValue(x), DigitValue(y));
    }
  }

  lemma SingleCharOrder(x: char, y: char)
    ensures StrLe([x], [y]) <==> x <= y
  {
    assert [x][1..] == [] && [y][1..] == [];
  }

  /** Appending a digit keeps the order of the numbers in front. */
  lemma AppendDigit(p: nat, q: nat, c: nat, d: nat)
    requires c < 10 && d < 10
    ensures p < q ==> 10 * p + c < 10 * q + d
    ensures p == q ==> (10 * p + c <= 10 * q + d <==> c <= d) && (10 * p + c == 10 * q + d <==> c == d)
  {
  }

  /** Comparing two strings whose first parts have equal length: the first
      parts decide unless they are equal. */
  lemma {:induction false} StrLeConcat(a1: string, a2: string, b1: string, b2: string)
    requires |a1| == |b1|
    ensures StrLe(a1 + a2, b1 + b2) == if a1 == b1 then StrLe(a2, b2) else StrLe(a1, b1)
  {
    if |a1| > 0 {
      assert (a1 + a2)[0] == a1[0] && (b1 + b2)[0] == b1[0];
      if a1[0] == b1[0] {
        assert (a1 + a2)[1..] == a1[1..] + a2 && (b1 + b2)[1..] == b1[1..] + b2;
        StrLeConcat(a1[1..], a2, b1[1..], b2);
        assert a1 == [a1[0]] + a1[1..] && b1 == [b1[0]] + b1[1..];
      }
    } else {
      assert a1 + a2 == a2 && b1 + b2 == b2;
    }
  }

  /** The shape `YYYY-MM-DD`: four, two and two digits separated by dashes. */
  predicate IsoShape(s: string)
  {
    && |s| == 10
    && IsDigits(s[..4]) && s[4] == '-'
    && IsDigits(s[5..7]) && s[7] == '-'
    && IsDigits(s[8..])
  }

  function Year(s: string): nat requires IsoShape(s) { Num(s[..4]) }

  function Month(s: string): nat requires IsoShape(s) { Num(s[5..7]) }

  function Day(s: string): nat requires IsoShape(s) { Num(s[8..]) }

  /** The field values as the number YYYYMMDD. */
  function DayNumber(s: string): nat
    requires IsoShape(s)
  {
    Year(s) * 10000 + Month(s) * 100 + Day(s)
  }

  /** On strings of the `YYYY-MM-DD` shape, string order is the order of
      the numbers YYYYMMDD. */
  lemma StringOrderIsDayNumberOrder(a: string, b: string)
    requires IsoShape(a) && IsoShape(b)
    ensures StrLe(a, b) <==> DayNumber(a) <= DayNumber(b)
  {
    StrLeByFields(a, b);
    DigitOrderIsNumeric(a[..4], b[..4]);
    DigitOrderIsNumeric(a[5..7], b[5..7]);
    DigitOrderIsNumeric(a[8..], b[8..]);
    DayNumberIsLexicographic(a, b);
  }

  /** Comparing two dates field by field: the year decides unless equal, then the month, then the day. */
  lemma {:induction false} StrLeByFields(a: string, b: string)
    requires IsoShape(a) && IsoShape(b)
    ensures StrLe(a, b) == if a[..4] != b[..4] then StrLe(a[..4], b[..4])
                           else if a[5..7] != b[5..7] then StrLe(a[5..7], b[5..7])
                           else StrLe(a[8..], b[8..])
  {
    assert a == a[..4] + a[4..] && b == b[..4] + b[4..];
    assert a[4..] == a[4..5] + a[5..] && b[4..] == b[4..5] + b[5..];
    assert a[5..] == a[5..7] + a[7..] && b[5..] == b[5..7] + b[7..];
    assert a[7..] == a[7..8] + a[8..] && b[7..] == b[7..8] + b[8..];
    assert a[4..5] == b[4..5] && a[7..8] == b[7..8];
    StrLeConcat(a[..4], a[4..], b[..4], b[4..]);
    StrLeConcat(a[4..5], a[5..], b[4..5], b[5..]);
    StrLeConcat(a[5..7], a[7..], b[5..7], b[7..]);
    StrLeConcat(a[7..8], a[8..], b[7..8], b[8..]);
  }


  lemma NumOfTwoDigits(s: string)
    requires |s| == 2 && IsDigits(s)
    ensures Num(s) == 10 * DigitValue(s[0]) + DigitValue(s[1])
  {
    var s1 := s[..1];
    assert s1[..0] == [] && s1[0] == s[0] && IsDigits(s1);
    assert Num(s1) == 10 * Num(s1[..0]) + DigitValue(s1[0]);
    assert Num(s) == 10 * Num(s1) + DigitValue(s[1]);
  }

  lemma NumOfFourDigits(s: string)
    requires |s| == 4 && IsDigits(s)
    ensures Num(s) == 1000 * DigitValue(s[0]) + 100 * DigitValue(s[1]) + 10 * DigitValue(s[2]) + DigitValue(s[3])
  {
    var s2, s3 := s[..2], s[..3];
    assert s3[..2] == s2 && s3[2] == s[2];
    NumOfTwoDigits(s2);
  }

  /** The shape, checked character by character. */
  lemma IsoShapeByChars(s: string)
    requires |s| == 10 && s[4] == '-' && s[7] == '-'
    requires IsDigit(s[0]) && IsDigit(s[1]) && IsDigit(s[2]) && IsDigit(s[3])
    requires IsDigit(s[5]) && IsDigit(s[6]) && IsDigit(s[8]) && IsDigit(s[9])
    ensures IsoShape(s)
  {
    assert forall i :: 0 <= i < 4 ==> s[..4][i] == s[i];
    assert forall i :: 0 <= i < 2 ==> s[5..7][i] == s[5 + i] && s[8..][i] == s[8 + i];
  }

  /** The year, month and day of a `YYYY-MM-DD` string, digit by digit. */
  lemma DateFields(s: string)
    requires IsoShape(s)
    ensures Year(s) == 1000 * DigitValue(s[0]) + 100 * DigitValue(s[1]) + 10 * DigitValue(s[2]) + DigitValue(s[3])
    ensures Month(s) == 10 * DigitValue(s[5]) + DigitValue(s[6])
    ensures Day(s) == 10 * DigitValue(s[8]) + DigitValue(s[9])
  {
    NumOfFourDigits(s[..4]);
    NumOfTwoDigits(s[5..7]);
    NumOfTwoDigits(s[8..]);
  }

  /** The shape and the fields of a date given character by character. */
  lemma ReadDate(s: string)
    requires |s| == 10 && s[4] == '-' && s[7] == '-'
    requires IsDigit(s[0]) && IsDigit(s[1]) && IsDigit(s[2]) && IsDigit(s[3])
    requires IsDigit(s[5]) && IsDigit(s[6]) && IsDigit(s[8]) && IsDigit(s[9])
    ensures IsoShape(s)
    ensures Year(s) == 1000 * DigitValue(s[0]) + 100 * DigitValue(s[1]) + 10 * DigitValue(s[2]) + DigitValue(s[3])
    ensures Month(s) == 10 * DigitValue(s[5]) + DigitValue(s[6])
    ensures Day(s) == 10 * DigitValue(s[8]) + DigitValue(s[9])
  {
    IsoShapeByChars(s);
    DateFields(s);
  }

  // ---- The proleptic Gregorian calendar, as ECMAScript's date arithmetic uses it.

  predicate IsLeapYear(y: nat)
  {
    y % 4 == 0 && (y % 100 != 0 || y % 400 == 0)
  }

  /** The length of month `m` (1 to 12) of year `y`. */
  function DaysInMonth(y: nat, m: nat): nat
  {
    if m == 2 then (if IsLeapYear(y) then 29 else 28)
    else if m == 4 || m == 6 || m == 9 || m == 11 then 30
    else 31
  }

  /** The days of year `y` before the first of month `m`. */
  function DaysBeforeMonth(y: nat, m: nat): nat
  {
    if m <= 1 then 0 else DaysBeforeMonth(y, m - 1) + DaysInMonth(y, m - 1)
  }

  function DaysInYear(y: nat): nat
  {
    DaysBeforeMonth(y, 13)
  }

  /** The days from 0000-01-01 to the first of January of year `y`. */
  function DaysBeforeYear(y: nat): nat
  {
    if y == 0 then 0 else DaysBeforeYear(y - 1) + DaysInYear(y - 1)
  }

  /** 365 days a year plus one for each leap year before `y`: years 0, 4,
      8, … without the centuries not divisible by 400. */
  function LeapCount(y: nat): int
  {
    (y + 3) / 4 - (y + 99) / 100 + (y + 399) / 400
  }

  lemma DaysInYearValue(y: nat)
    ensures DaysInYear(y) == if IsLeapYear(y) then 366 else 365
  {
    var feb := DaysInMonth(y, 2);
    assert DaysBeforeMonth(y, 2) == 31;
    assert DaysBeforeMonth(y, 3) == 31 + feb;
    assert DaysBeforeMonth(y, 4) == 62 + feb;
    assert DaysBeforeMonth(y, 5) == 92 + feb;
    assert DaysBeforeMonth(y, 6) == 123 + feb;
    assert DaysBeforeMonth(y, 7) == 153 + feb;
    assert DaysBeforeMonth(y, 8) == 184 + feb;
    assert DaysBeforeMonth(y, 9) == 215 + feb;
    assert DaysBeforeMonth(y, 10) == 245 + feb;
    assert DaysBeforeMonth(y, 11) == 276 + feb;
    assert DaysBeforeMonth(y, 12) == 306 + feb;
    assert DaysBeforeMonth(y, 13) == 337 + feb;
  }

  /** Moving from `y` to `y + 1` passes a multiple of `k` exactly when `y` is one. */
  lemma MultiplesPassed(y: nat)
    ensures (y + 4) / 4 - (y + 3) / 4 == (if y % 4 == 0 then 1 else 0)
    ensures (y + 100) / 100 - (y + 99) / 100 == (if y % 100 == 0 then 1 else 0)
    ensures (y + 400) / 400 - (y + 399) / 400 == (if y % 400 == 0 then 1 else 0)
  {
    MultiplesOf4Passed(y);
    MultiplesOf100Passed(y);
    MultiplesOf400Passed(y);
  }

  lemma MultiplesOf4Passed(y: nat)
    ensures (y + 4) / 4 - (y + 3) / 4 == (if y % 4 == 0 then 1 else 0)
  {
    var q, r := y / 4, y % 4;
    assert y == 4 * q + r;
    assert (y + 4) / 4 == q + 1;
    assert (y + 3) / 4 == if r == 0 then q else q + 1;
  }

  lemma MultiplesOf100Passed(y: nat)
    ensures (y + 100) / 100 - (y + 99) / 100 == (if y % 100 == 0 then 1 else 0)
  {
    var q, r := y / 100, y % 100;
    assert y == 100 * q + r;
    assert (y + 100) / 100 == q + 1;
    assert (y + 99) / 100 == if r == 0 then q else q + 1;
  }

  lemma MultiplesOf400Passed(y: nat)
    ensures (y + 400) / 400 - (y + 399) / 400 == (if y % 400 == 0 then 1 else 0)
  {
    var q, r := y / 400, y % 400;
    assert y == 400 * q + r;
    assert (y + 400) / 400 == q + 1;
    assert (y + 399) / 400 == if r == 0 then q else q + 1;
  }

  lemma CenturiesAreLeapCandidates(y: nat)
    ensures y % 400 == 0 ==> y % 100 == 0
    ensures y % 100 == 0 ==> y % 4 == 0
  {
    if y % 400 == 0 {
      assert y == 100 * (4 * (y / 400));
    }
    if y % 100 == 0 {
      assert y == 4 * (25 * (y / 100));
    }
  }

  /** One more year adds one leap day exactly when the year is a leap year. */
  lemma LeapCountStep(y: nat)
    ensures LeapCount(y + 1) == LeapCount(y) + (if IsLeapYear(y) then 1 else 0)
  {
    MultiplesPassed(y);
    CenturiesAreLeapCandidates(y);
    assert LeapCount(y + 1) == (y + 4) / 4 - (y + 100) / 100 + (y + 400) / 400;
  }

  /** The year-by-year count has the closed form `365 * y + LeapCount(y)`. */
  lemma {:induction false} DaysBeforeYearClosedForm(y: nat)
    ensures DaysBeforeYear(y) == 365 * y + LeapCount(y)
  {
    if y > 0 {
      var p := y - 1;
      DaysBeforeYearClosedForm(p);
      LeapCountStep(p);
      DaysInYearValue(p);
      assert p + 1 == y;
      assert DaysBeforeYear(y) == DaysBeforeYear(p) + DaysInYear(p);
    }
  }

  /** The days from 0000-01-01 to 1970-01-01, the start of ECMAScript time. */
  const EPOCH_DAYS: int := 719528


  /** A date string `new Date(..)` reads as a real calendar day: the
      `YYYY-MM-DD` shape with month 01 to 12 and a day that exists in that
      month. */
  predicate CalendarDate(s: string)
  {
    IsoShape(s) && 1 <= Month(s) <= 12 && 1 <= Day(s) <= DaysInMonth(Year(s), Month(s))
  }

  /** The days from 0000-01-01 to the date. */
  function DayIndex(s: string): nat
    requires CalendarDate(s)
  {
    DaysBeforeYear(Year(s)) + DaysBeforeMonth(Year(s), Month(s)) + Day(s) - 1
  }

  const MS_PER_DAY: int := 86400000

  /** `new Date(s).getTime()`: a date-only ISO string denotes midnight UTC,
      counted in milliseconds from 1970-01-01. */
  function Timestamp(s: string): int
    requires CalendarDate(s)
  {
    (DayIndex(s) - EPOCH_DAYS) * MS_PER_DAY
  }

  /** Time zero is midnight UTC on 1970-01-01. */
  lemma EpochIsZero(s: string)
    requires CalendarDate(s) && Year(s) == 1970 && Month(s) == 1 && Day(s) == 1
    ensures Timestamp(s) == 0
  {
    EpochDays(Year(s));
  }

  /** The year is a parameter pinned by `requires` rather than the literal
      1970, so that the verifier does not unroll `DaysBeforeYear(1970)`
      call by call. */
  lemma EpochDays(y: nat)
    requires y == 1970
    ensures DaysBeforeYear(y) == EPOCH_DAYS
  {
    DaysBeforeYearClosedForm(y);
    LeapDaysBefore1970(y);
  }

  /** Pinned to 1970 by `requires` for the same reason as `EpochDays`. */
  lemma LeapDaysBefore1970(y: nat)
    requires y == 1970
    ensures 365 * y + LeapCount(y) == EPOCH_DAYS
  {
  }

  /** Consecutive days are `MS_PER_DAY` apart, across month and year ends too. */
  lemma NextDayIsOneDayLater(a: string, b: string)
    requires CalendarDate(a) && CalendarDate(b)
    requires || (Year(b) == Year(a) && Month(b) == Month(a) && Day(b) == Day(a) + 1)
             || (Year(b) == Year(a) && Month(b) == Month(a) + 1 && Day(a) == DaysInMonth(Year(a), Month(a)) && Day(b) == 1)
             || (Year(b) == Year(a) + 1 && Month(a) == 12 && Day(a) == 31 && Month(b) == 1 && Day(b) == 1)
    ensures Timestamp(b) == Timestamp(a) + MS_PER_DAY
  {
    var y := Year(a);
    if Year(b) == y + 1 {
      NewYearDay(y);
    } else if Month(b) == Month(a) + 1 {
      assert DaysBeforeMonth(y, Month(b)) == DaysBeforeMonth(y, Month(a)) + DaysInMonth(y, Month(a));
    }
    assert DayIndex(b) == DayIndex(a) + 1;
  }

  /** 1 January of `y + 1` is the day after 31 December of `y`. */
  lemma NewYearDay(y: nat)
    ensures DaysBeforeYear(y + 1) + DaysBeforeMonth(y + 1, 1) == DaysBeforeYear(y) + DaysBeforeMonth(y, 12) + 31
  {
    assert DaysInYear(y) == DaysBeforeMonth(y, 12) + DaysInMonth(y, 12);
  }

  lemma {:induction false} MonthsAreIncreasing(y: nat, m: nat, n: nat)
    requires 1 <= m < n
    ensures DaysBeforeMonth(y, m) + DaysInMonth(y, m) <= DaysBeforeMonth(y, n)
  {
    if n > m + 1 {
      MonthsAreIncreasing(y, m, n - 1);
    }
  }

  lemma {:induction false} YearsAreIncreasing(y: nat, z: nat)
    requires y < z
    ensures DaysBeforeYear(y) + DaysInYear(y) <= DaysBeforeYear(z)
  {
    if z > y + 1 {
      YearsAreIncreasing(y, z - 1);
    }
  }

  /** A day of a real date lies before the end of its month and of its year. */
  lemma DayFitsInYear(s: string)
    requires CalendarDate(s)
    ensures DaysBeforeMonth(Year(s), Month(s)) + Day(s) - 1 < DaysInYear(Year(s))
  {
    if Month(s) < 12 {
      MonthsAreIncreasing(Year(s), Month(s), 13);
    } else {
      assert DaysInYear(Year(s)) == DaysBeforeMonth(Year(s), 12) + DaysInMonth(Year(s), 12);
    }
  }

  /** YYYYMMDD orders by year, then month, then day. */
  lemma DayNumberIsLexicographic(a: string, b: string)
    requires IsoShape(a) && IsoShape(b)
    ensures DayNumber(a) < DayNumber(b) <==>
      || Year(a) < Year(b)
      || (Year(a) == Year(b) && Month(a) < Month(b))
      || (Year(a) == Year(b) && Month(a) == Month(b) && Day(a) < Day(b))
    ensures DayNumber(a) == DayNumber(b) <==> Year(a) == Year(b) && Month(a) == Month(b) && Day(a) == Day(b)
  {
    NumBound(a[5..7]);
    NumBound(b[5..7]);
    NumBound(a[8..]);
    NumBound(b[8..]);
    assert Pow10(2) == 100;
  }

  /** On real dates, an earlier (year, month, day) is an earlier day. */
  lemma DayIndexIsIncreasing(a: string, b: string)
    requires CalendarDate(a) && CalendarDate(b)
    requires DayNumber(a) < DayNumber(b)
    ensures DayIndex(a) < DayIndex(b)
  {
    DayNumberIsLexicographic(a, b);
    var ya, ma, da := Year(a), Month(a), Day(a);
    var yb, mb, db := Year(b), Month(b), Day(b);
    if ya < yb {
      DayFitsInYear(a);
      YearsAreIncreasing(ya, yb);
    } else if ma < mb {
      MonthsAreIncreasing(ya, ma, mb);
    }
  }

  /** String order on real dates is the order of their timestamps. */
  lemma StringOrderIsChronological(a: string, b: string)
    requires CalendarDate(a) && CalendarDate(b)
    ensures StrLe(a, b) <==> Timestamp(a) <= Timestamp(b)
  {
    StringOrderIsDayNumberOrder(a, b);
    if DayNumber(a) < DayNumber(b) {
      DayIndexIsIncreasing(a, b);
    } else if DayNumber(b) < DayNumber(a) {
      DayIndexIsIncreasing(b, a);
    } else {
      DayNumberIsLexicographic(a, b);
    }
  }

  /** Two real dates have the same timestamp only when they are the same string. */
  lemma SameDayIsSameDate(a: string, b: string)
    requires CalendarDate(a) && CalendarDate(b)
    ensures a == b <==> Timestamp(a) == Timestamp(b)
  {
    StringOrderIsChronological(a, b);
    StringOrderIsChronological(b, a);
    if Timestamp(a) == Timestamp(b) {
      StrLeAntisymmetric(a, b);
    }
  }
}

=== FILE: ledger.dfy ===
/** The ledger's mutations (`addTransaction`, `handleUpdateTransaction`,
    `deleteTransaction`) and the dashboard's five most recent records. */
module Ledger {
  import opened Types
  import opened Seqs
  import opened Stats
  import opened Strings
  import opened DateSort

  /** A new record goes to the front of the ledger. */
  function Add(txs: seq<Transaction>, t: Transaction): (r: seq<Transaction>)
    ensures |r| == |txs| + 1 && r[0] == t
    ensures forall i :: 0 <= i < |txs| ==> r[i + 1] == txs[i]
  {
    [t] + txs
  }

  /** Every record carrying the edited record's id is replaced by it. */
  function Update(txs: seq<Transaction>, u: Transaction): (r: seq<Transaction>)
    ensures |r| == |txs|
    ensures forall i :: 0 <= i < |txs| && txs[i].id == u.id ==> r[i] == u
    ensures forall i :: 0 <= i < |txs| && txs[i].id != u.id ==> r[i] == txs[i]
    ensures forall i :: 0 <= i < |txs| ==> r[i].id == txs[i].id
    ensures !HasId(txs, u.id) ==> r == txs
  {
    seq(|txs|, i requires 0 <= i < |txs| => if txs[i].id == u.id then u else txs[i])
  }

  /** Every record with the given id is dropped; the rest keep their order. */
  function Delete(txs: seq<Transaction>, id: string): (r: seq<Transaction>)
    ensures forall i :: 0 <= i < |r| ==> r[i].id != id
  {
    Filter(txs, (t: Transaction) => t.id != id)
  }

  /** `transactions.slice(0, 5)`. */
  function Recent(txs: seq<Transaction>): (r: seq<Transaction>)
    ensures |r| == if |txs| < 5 then |txs| else 5
    ensures forall i :: 0 <= i < |r| ==> r[i] == txs[i]
  {
    txs[..if |txs| < 5 then |txs| else 5]
  }

  predicate HasId(txs: seq<Transaction>, id: string)
  {
    exists i :: 0 <= i < |txs| && txs[i].id == id
  }

  /** Applying the same update twice is the same as once. */
  lemma UpdateIsIdempotent(txs: seq<Transaction>, u: Transaction)
    ensures Update(Update(txs, u), u) == Update(txs, u)
  {
  }

  /** A record survives a delete exactly when it is present and has another id. */
  lemma DeleteKeepsOthers(txs: seq<Transaction>, id: string, t: Transaction)
    ensures t in Delete(txs, id) <==> t in txs && t.id != id
    ensures multiset(Delete(txs, id))[t] == if t.id != id then multiset(txs)[t] else 0
  {
    FilterMembership(txs, (x: Transaction) => x.id != id, t);
    FilterCount(txs, (x: Transaction) => x.id != id, t);
  }

  /** Deleting an id the ledger does not hold changes nothing. */
  lemma DeleteUnknownIdIsNoOp(txs: seq<Transaction>, id: string)
    requires !HasId(txs, id)
    ensures Delete(txs, id) == txs
  {
    FilterAll(txs, (t: Transaction) => t.id != id);
  }

  /** Deleting preserves the relative order of what it keeps. */
  lemma DeleteConcat(a: seq<Transaction>, b: seq<Transaction>, id: string)
    ensures Delete(a + b, id) == Delete(a, id) + Delete(b, id)
  {
    FilterConcat(a, b, (t: Transaction) => t.id != id);
  }

  /** Deleting a record's id right after adding it leaves what deleting that id
      from the old ledger would; for a fresh id, the old ledger itself. */
  lemma DeleteUndoesAdd(txs: seq<Transaction>, t: Transaction)
    ensures Delete(Add(txs, t), t.id) == Delete(txs, t.id)
    ensures !HasId(txs, t.id) ==> Delete(Add(txs, t), t.id) == txs
  {
    DeleteConcat([t], txs, t.id);
    if !HasId(txs, t.id) {
      DeleteUnknownIdIsNoOp(txs, t.id);
    }
  }

  /** Deleting after an update with the same id is the same as deleting without it. */
  lemma {:induction false} DeleteAfterUpdate(txs: seq<Transaction>, u: Transaction)
    ensures Delete(Update(txs, u), u.id) == Delete(txs, u.id)
  {
    if |txs| > 0 {
      var rest := Update(txs[1..], u);
      DeleteAfterUpdate(txs[1..], u);
      assert Update(txs, u) == [Update(txs, u)[0]] + rest;
      assert txs == [txs[0]] + txs[1..];
      DeleteConcat([Update(txs, u)[0]], rest, u.id);
      DeleteConcat([txs[0]], txs[1..], u.id);
    }
  }

  /** Adding a record adds exactly its contribution to every summary figure. */
  lemma AddStats(txs: seq<Transaction>, t: Transaction)
    ensures CalculateStats(Add(txs, t)) == Combine(Contribution(t), CalculateStats(txs))
  {
    StatsConcat([t], txs);
    StatsOfOne(t);
  }

  /** The newest addition heads the five-record slice handed to the dashboard
      list, and the slice grows by one until it holds five. */
  lemma RecentShowsLatestAdd(txs: seq<Transaction>, t: Transaction)
    ensures Recent(Add(txs, t))[0] == t
    ensures |Recent(Add(txs, t))| == if |txs| < 4 then |txs| + 1 else 5
  {
  }

  /** The dashboard list re-sorts the slice newest first: the new record is
      always shown, and it is shown first exactly when no record of the slice
      is dated later. */
  lemma RecentListShowsAdd(txs: seq<Transaction>, t: Transaction)
    ensures t in SortNewestFirst(Recent(Add(txs, t)))
    ensures multiset(SortNewestFirst(Recent(Add(txs, t)))) == multiset(Recent(Add(txs, t)))
    ensures SortNewestFirst(Recent(Add(txs, t)))[0] == t
        <==> forall u :: u in Recent(Add(txs, t)) ==> StrLe(u.date, t.date)
  {
    var r := Recent(Add(txs, t));
    var sorted := SortNewestFirst(r);
    assert r[0] == t;
    SortPermutes(r);
    assert t in multiset(sorted);
    SortIsNewestFirst(r);
    var rest := SortNewestFirst(r[1..]);
    SortPermutes(r[1..]);
    assert sorted == Insert(t, rest);
    if forall u :: u in r ==> StrLe(u.date, t.date) {
      if |rest| > 0 {
        assert rest[0] in multiset(r[1..]);
        assert rest[0] in r;
        assert Insert(t, rest) == [t] + rest;
      }
    }
    if sorted[0] == t {
      forall u | u in r
        ensures StrLe(u.date, t.date)
      {
        assert u in multiset(sorted);
        var j :| 0 <= j < |sorted| && sorted[j] == u;
        if j == 0 {
          StrLeReflexive(t.date);
        }
      }
    }
  }
}

=== FILE: periods.dfy ===
/** `getFilteredData`: the history view's period filter, its label, and the
    newest-first ordering of what it keeps. */
module Periods {
  import opened Types
  import opened Strings
  import opened Seqs
  import opened DateSort
  import opened Stats
  import opened IsoDates

  /** `'all'`, `'month'` and `'range'`. */
  datatype FilterType = All | Month | Range

  /** The filter controls: the chosen mode and the three text inputs
      (`YYYY-MM` month, `YYYY-MM-DD` bounds; an input left blank is `""`). */
  datatype PeriodFilter = PeriodFilter(
    filterType: FilterType,
    selectedMonth: string,
    startDate: string,
    endDate: string)

  /** The filtered, sorted records and the label of the active period. */
  datatype FilteredData = FilteredData(filteredTransactions: seq<Transaction>, periodText: string)

  /** The range filter applies only once both bounds are filled in. */
  predicate RangeActive(p: PeriodFilter)
  {
    p.filterType == Range && p.startDate != "" && p.endDate != ""
  }

  /** Which records the period admits, mode by mode. */
  predicate InPeriod(p: PeriodFilter, t: Transaction)
  {
    match p.filterType
    case All => true
    case Month => StartsWith(t.date, p.selectedMonth)
    case Range => !RangeActive(p) || (StrLe(p.startDate, t.date) && StrLe(t.date, p.endDate))
  }

  /** The filtering step, in the source's branch order. */
  function Select(txs: seq<Transaction>, p: PeriodFilter): seq<Transaction>
  {
    if p.filterType == Month then
      Filter(txs, (t: Transaction) => StartsWith(t.date, p.selectedMonth))
    else if RangeActive(p) then
      Filter(txs, (t: Transaction) => StrLe(p.startDate, t.date) && StrLe(t.date, p.endDate))
    else
      txs
  }

  function PeriodText(p: PeriodFilter): string
  {
    if p.filterType == Month then "Período: " + p.selectedMonth
    else if RangeActive(p) then "Desde " + p.startDate + " hasta " + p.endDate
    else "Histórico Completo"
  }

  /** The filter decides record by record. */
  lemma SelectCons(t: Transaction, txs: seq<Transaction>, p: PeriodFilter)
    ensures Select([t] + txs, p) == (if InPeriod(p, t) then [t] else []) + Select(txs, p)
  {
    assert ([t] + txs)[0] == t && ([t] + txs)[1..] == txs;
  }

  /** The filter keeps each admitted record with all its occurrences and drops every other. */
  lemma SelectKeepsPeriod(txs: seq<Transaction>, p: PeriodFilter)
    ensures forall t :: multiset(Select(txs, p))[t] == if InPeriod(p, t) then multiset(txs)[t] else 0
  {
    if p.filterType == Month {
      FilterMultiset(txs, (t: Transaction) => StartsWith(t.date, p.selectedMonth));
    } else if RangeActive(p) {
      FilterMultiset(txs, (t: Transaction) => StrLe(p.startDate, t.date) && StrLe(t.date, p.endDate));
    }
  }

  /** The view: exactly the admitted records, with their multiplicities, newest first. */
  function GetFilteredData(txs: seq<Transaction>, p: PeriodFilter): (r: FilteredData)
    ensures NewestFirst(r.filteredTransactions)
    ensures forall t :: multiset(r.filteredTransactions)[t] == if InPeriod(p, t) then multiset(txs)[t] else 0
    ensures multiset(r.filteredTransactions) == multiset(Select(txs, p))
  {
    var kept := Select(txs, p);
    SortPermutes(kept);
    SortIsNewestFirst(kept);
    SelectKeepsPeriod(txs, p);
    FilteredData(SortNewestFirst(kept), PeriodText(p))
  }

  lemma Membership(txs: seq<Transaction>, p: PeriodFilter, t: Transaction)
    ensures t in GetFilteredData(txs, p).filteredTransactions <==> t in txs && InPeriod(p, t)
  {
    var r := GetFilteredData(txs, p).filteredTransactions;
    assert t in r <==> t in multiset(r);
    assert t in txs <==> t in multiset(txs);
  }

  /** Month mode keeps exactly the records whose date starts with the month
      text, and labels the period with it. */
  lemma MonthModeKeepsPrefix(txs: seq<Transaction>, p: PeriodFilter, t: Transaction)
    requires p.filterType == Month
    ensures t in GetFilteredData(txs, p).filteredTransactions <==> t in txs && StartsWith(t.date, p.selectedMonth)
    ensures GetFilteredData(txs, p).periodText == "Período: " + p.selectedMonth
  {
    Membership(txs, p, t);
  }

  /** With both bounds set, range mode keeps exactly the records dated
      between them, both bounds included. */
  lemma RangeModeIsInclusive(txs: seq<Transaction>, p: PeriodFilter, t: Transaction)
    requires p.filterType == Range && p.startDate != "" && p.endDate != ""
    ensures t in GetFilteredData(txs, p).filteredTransactions
        <==> t in txs && StrLe(p.startDate, t.date) && StrLe(t.date, p.endDate)
    ensures GetFilteredData(txs, p).periodText == "Desde " + p.startDate + " hasta " + p.endDate
  {
    Membership(txs, p, t);
  }

  /** On real calendar dates the inclusive string range is a range of days. */
  lemma RangeModeIsChronological(txs: seq<Transaction>, p: PeriodFilter, t: Transaction)
    requires p.filterType == Range
    requires CalendarDate(p.startDate) && CalendarDate(p.endDate) && CalendarDate(t.date)
    ensures t in GetFilteredData(txs, p).filteredTransactions
        <==> t in txs && Timestamp(p.startDate) <= Timestamp(t.date) <= Timestamp(p.endDate)
  {
    RangeModeIsInclusive(txs, p, t);
    StringOrderIsChronological(p.startDate, t.date);
    StringOrderIsChronological(t.date, p.endDate);
  }

  /** In `all` mode, and in range mode while a bound is blank, nothing is
      filtered out: the view is the whole ledger, reordered, under the
      full-history label. */
  lemma InactiveFilterKeepsAll(txs: seq<Transaction>, p: PeriodFilter)
    requires p.filterType == All || (p.filterType == Range && (p.startDate == "" || p.endDate == ""))
    ensures multiset(GetFilteredData(txs, p).filteredTransactions) == multiset(txs)
    ensures GetFilteredData(txs, p).periodText == "Histórico Completo"
  {
  }

  /** Records of the same date appear in the view in ledger order. */
  lemma ViewIsStable(txs: seq<Transaction>, p: PeriodFilter, d: string)
    ensures OnDate(GetFilteredData(txs, p).filteredTransactions, d) == OnDate(Select(txs, p), d)
  {
    SortIsStable(Select(txs, p), d);
  }

  /** The summary of the sorted view equals the summary of the unsorted filtered subset. */
  lemma ViewStatsIgnoreOrder(txs: seq<Transaction>, p: PeriodFilter)
    ensures CalculateStats(GetFilteredData(txs, p).filteredTransactions) == CalculateStats(Select(txs, p))
  {
    StatsPermutation(GetFilteredData(txs, p).filteredTransactions, Select(txs, p));
  }
}

=== FILE: scenarios.dfy ===
/** Worked instances of the history view's filter on concrete dates. */
module Scenarios {
  import opened Types
  import opened Strings
  import opened DateSort
  import opened Periods
  import opened IsoDates

  /** A cash income of 1 on `date`. */
  function Sample(id: string, date: string): Transaction
  {
    Transaction(id, date, "Sala 3", Income, 1.0, Cash, "Pago de cuota")
  }

  lemma MarchSelection()
    ensures Select([Sample("a", "2024-03-01"), Sample("b", "2024-03-31"), Sample("c", "2024-04-01")],
                   PeriodFilter(Month, "2024-03", "", ""))
         == [Sample("a", "2024-03-01"), Sample("b", "2024-03-31")]
  {
    var a, b, c := Sample("a", "2024-03-01"), Sample("b", "2024-03-31"), Sample("c", "2024-04-01");
    var p := PeriodFilter(Month, "2024-03", "", "");
    assert a.date[..7] == "2024-03" && b.date[..7] == "2024-03" && c.date[6] != "2024-03"[6];
    SelectCons(c, [], p);
    SelectCons(b, [c], p);
    SelectCons(a, [b, c], p);
    assert [a] + [b, c] == [a, b, c] && [b] + [c] == [b, c] && [c] + [] == [c];
  }

  lemma MarchComparison()
    ensures !StrLe("2024-03-31", "2024-03-01")
  {
    var first, last := "2024-03-01", "2024-03-31";
    assert last[..8] == first[..8];
    StrLeAtFirstDifference(last, first, 8);
  }

  lemma MarchOrder()
    ensures SortNewestFirst([Sample("a", "2024-03-01"), Sample("b", "2024-03-31")])
         == [Sample("b", "2024-03-31"), Sample("a", "2024-03-01")]
  {
    MarchComparison();
    SortPair(Sample("a", "2024-03-01"), Sample("b", "2024-03-31"));
  }

  /** Month `2024-03` over records of 1 and 31 March and 1 April keeps the
      two March records, the later one first. */
  lemma MonthFilterExample()
    ensures GetFilteredData([Sample("a", "2024-03-01"), Sample("b", "2024-03-31"), Sample("c", "2024-04-01")],
                            PeriodFilter(Month, "2024-03", "", "")).filteredTransactions
         == [Sample("b", "2024-03-31"), Sample("a", "2024-03-01")]
  {
    MarchSelection();
    MarchOrder();
  }

  lemma JanuaryComparisons()
    ensures StrLe("2024-01-10", "2024-01-10")
    ensures StrLe("2024-01-10", "2024-01-20")
    ensures !StrLe("2024-01-21", "2024-01-20")
  {
    var lo, hi, after := "2024-01-10", "2024-01-20", "2024-01-21";
    StrLeReflexive(lo);
    assert lo[..8] == hi[..8];
    StrLeAtFirstDifference(lo, hi, 8);
    assert after[..9] == hi[..9];
    StrLeAtFirstDifference(after, hi, 9);
  }

  /** The range 2024-01-10 to 2024-01-20 keeps a record of its first day
      and never one of the day after its last. */
  lemma RangeBoundaryExample(txs: seq<Transaction>, x: string, y: string)
    ensures var p := PeriodFilter(Range, "", "2024-01-10", "2024-01-20");
      Sample(x, "2024-01-10") in txs ==> Sample(x, "2024-01-10") in GetFilteredData(txs, p).filteredTransactions
    ensures var p := PeriodFilter(Range, "", "2024-01-10", "2024-01-20");
      Sample(y, "2024-01-21") !in GetFilteredData(txs, p).filteredTransactions
  {
    var p := PeriodFilter(Range, "", "2024-01-10", "2024-01-20");
    JanuaryComparisons();
    RangeModeIsInclusive(txs, p, Sample(x, "2024-01-10"));
    RangeModeIsInclusive(txs, p, Sample(y, "2024-01-21"));
  }

  /** The calendar check: 29 February exists in 2024 but not in 2023, and
      30 February, month 13 and month 00 never exist. */
  lemma CalendarExamples()
    ensures CalendarDate("2024-02-29") && CalendarDate("2024-03-01")
    ensures !CalendarDate("2023-02-29") && !CalendarDate("2024-02-30")
    ensures !CalendarDate("2024-13-01") && !CalendarDate("2024-00-10")
  {
    ReadDate("2024-02-29");
    ReadDate("2024-03-01");
    ReadDate("2023-02-29");
    ReadDate("2024-02-30");
    ReadDate("2024-13-01");
    ReadDate("2024-00-10");
  }
}

=== FILE: seqs.dfy ===
/** Generic sequence operations behind the ledger code: `Array.prototype.filter`
    and the summing `reduce((acc, x) => acc + f(x), 0)`. */
module Seqs {

  /** The elements of `s` that `keep` accepts, in their original order. */
  function Filter<T>(s: seq<T>, keep: T -> bool): (r: seq<T>)
    ensures |r| <= |s|
    ensures forall i :: 0 <= i < |r| ==> keep(r[i])
  {
    if |s| == 0 then []
    else if keep(s[0]) then [s[0]] + Filter(s[1..], keep)
    else Filter(s[1..], keep)
  }

  /** Filtering distributes over concatenation, so it keeps relative order. */
  lemma {:induction false} FilterConcat<T>(a: seq<T>, b: seq<T>, keep: T -> bool)
    ensures Filter(a + b, keep) == Filter(a, keep) + Filter(b, keep)
  {
    if |a| == 0 {
      assert a + b == b;
    } else {
      assert (a + b)[0] == a[0];
      assert (a + b)[1..] == a[1..] + b;
      FilterConcat(a[1..], b, keep);
    }
  }

  /** Every accepted element keeps all its occurrences; every rejected one loses them. */
  lemma {:induction false} FilterCount<T>(s: seq<T>, keep: T -> bool, x: T)
    ensures multiset(Filter(s, keep))[x] == if keep(x) then multiset(s)[x] else 0
  {
    if |s| > 0 {
      assert s == [s[0]] + s[1..];
      FilterCount(s[1..], keep, x);
    }
  }

  lemma FilterMultiset<T>(s: seq<T>, keep: T -> bool)
    ensures forall x :: multiset(Filter(s, keep))[x] == if keep(x) then multiset(s)[x] else 0
  {
    forall x
      ensures multiset(Filter(s, keep))[x] == if keep(x) then multiset(s)[x] else 0
    {
      FilterCount(s, keep, x);
    }
  }

  /** An element survives the filter exactly when it is present and accepted. */
  lemma FilterMembership<T>(s: seq<T>, keep: T -> bool, x: T)
    ensures x in Filter(s, keep) <==> x in s && keep(x)
  {
    FilterCount(s, keep, x);
    assert x in Filter(s, keep) <==> x in multiset(Filter(s, keep));
    assert x in s <==> x in multiset(s);
  }

  /** A filter that accepts every element is the identity. */
  lemma {:induction false} FilterAll<T>(s: seq<T>, keep: T -> bool)
    requires forall i :: 0 <= i < |s| ==> keep(s[i])
    ensures Filter(s, keep) == s
  {
    if |s| > 0 {
      FilterAll(s[1..], keep);
    }
  }

  /** A filter that rejects every element leaves nothing. */
  lemma {:induction false} FilterNone<T>(s: seq<T>, keep: T -> bool)
    requires forall i :: 0 <= i < |s| ==> !keep(s[i])
    ensures Filter(s, keep) == []
  {
    if |s| > 0 {
      FilterNone(s[1..], keep);
    }
  }

  /** Filtering two permutations of each other gives permutations of each other. */
  lemma FilterPermutation<T>(a: seq<T>, b: seq<T>, keep: T -> bool)
    requires multiset(a) == multiset(b)
    ensures multiset(Filter(a, keep)) == multiset(Filter(b, keep))
  {
    forall x
      ensures multiset(Filter(a, keep))[x] == multiset(Filter(b, keep))[x]
    {
      FilterCount(a, keep, x);
      FilterCount(b, keep, x);
    }
    SameCounts(Filter(a, keep), Filter(b, keep));
  }

  lemma SameCounts<T>(a: seq<T>, b: seq<T>)
    requires forall x :: multiset(a)[x] == multiset(b)[x]
    ensures multiset(a) == multiset(b)
  {
  }

  /** `s.reduce((acc, x) => acc + f(x), 0)`: a left fold starting at zero. */
  function SumBy<T>(s: seq<T>, f: T -> real): real
  {
    if |s| == 0 then 0.0 else SumBy(s[..|s| - 1], f) + f(s[|s| - 1])
  }

  lemma SumBySingle<T>(x: T, f: T -> real)
    ensures SumBy([x], f) == f(x)
  {
    assert [x][..0] == [];
  }

  /** The sum over a concatenation is the sum of the sums. */
  lemma {:induction false} SumByConcat<T>(a: seq<T>, b: seq<T>, f: T -> real)
    ensures SumBy(a + b, f) == SumBy(a, f) + SumBy(b, f)
  {
    if |b| == 0 {
      assert a + b == a;
    } else {
      assert (a + b)[..|a + b| - 1] == a + b[..|b| - 1];
      assert (a + b)[|a + b| - 1] == b[|b| - 1];
      SumByConcat(a, b[..|b| - 1], f);
    }
  }

  /** Summing the accepted elements of a concatenation. */
  lemma FilteredSumConcat<T>(a: seq<T>, b: seq<T>, keep: T -> bool, f: T -> real)
    ensures SumBy(Filter(a + b, keep), f) == SumBy(Filter(a, keep), f) + SumBy(Filter(b, keep), f)
  {
    FilterConcat(a, b, keep);
    SumByConcat(Filter(a, keep), Filter(b, keep), f);
  }

  /** The sum does not depend on the order of the elements. */
  lemma {:induction false} SumByPermutation<T>(a: seq<T>, b: seq<T>, f: T -> real)
    requires multiset(a) == multiset(b)
    ensures SumBy(a, f) == SumBy(b, f)
    decreases |a|
  {
    if |a| == 0 {
      assert |b| == |multiset(b)| == 0;
    } else {
      var x := a[0];
      assert a == [x] + a[1..];
      assert x in multiset(b);
      var j :| 0 <= j < |b| && b[j] == x;
      var rest := b[..j] + b[j + 1..];
      assert b == b[..j] + [x] + b[j + 1..];
      assert multiset(b) == multiset(b[..j]) + multiset{x} + multiset(b[j + 1..]);
      assert multiset(rest) == multiset(b[..j]) + multiset(b[j + 1..]);
      assert multiset(a) == multiset{x} + multiset(a[1..]);
      assert multiset(a[1..]) == multiset(a) - multiset{x};
      assert multiset(rest) == multiset(b) - multiset{x};
      SumByPermutation(a[1..], rest, f);
      SumByConcat(b[..j] + [x], b[j + 1..], f);
      SumByConcat(b[..j], [x], f);
      SumByConcat(b[..j], b[j + 1..], f);
      SumByConcat([x], a[1..], f);
      SumBySingle(x, f);
    }
  }

  /** `s.map(f)`. */
  function Map<T, U>(s: seq<T>, f: T -> U): (r: seq<U>)
    ensures |r| == |s|
    ensures forall i :: 0 <= i < |s| ==> r[i] == f(s[i])
  {
    seq(|s|, i requires 0 <= i < |s| => f(s[i]))
  }
}

=== FILE: stats.dfy ===
/** `calculateStats`: the five summary figures of any sequence of transactions. */
module Stats {
  import opened Types
  import opened Seqs

  predicate IsIncome(t: Transaction) { t.kind == Income }

  predicate IsExpense(t: Transaction) { t.kind == Expense }

  /** The aggregator selects by the stored method string, as the source does. */
  predicate PaidInCash(t: Transaction) { MethodLabel(t.payment) == "Efectivo" }

  predicate PaidByTransfer(t: Transaction) { MethodLabel(t.payment) == "Transferencia" }

  predicate PaidOtherwise(t: Transaction) { MethodLabel(t.payment) == "Otro" }

  function Amount(t: Transaction): real { t.amount }

  /** An income counts with its amount, an expense with the amount negated. */
  function Signed(t: Transaction): real
  {
    if t.kind == Income then t.amount else -t.amount
  }

  /** The summary of `txs`: filtered sums of amounts by kind, and signed sums
      restricted to one payment method. */
  function CalculateStats(txs: seq<Transaction>): (r: SummaryStats)
    ensures r.netBalance == r.totalIncome - r.totalExpense
  {
    var income := SumBy(Filter(txs, IsIncome), Amount);
    var expense := SumBy(Filter(txs, IsExpense), Amount);
    var cash := SumBy(Filter(txs, PaidInCash), Signed);
    var transfer := SumBy(Filter(txs, PaidByTransfer), Signed);
    SummaryStats(income, expense, cash, transfer, income - expense)
  }

  /** Field-wise sum of two summaries. */
  function Combine(a: SummaryStats, b: SummaryStats): SummaryStats
  {
    SummaryStats(
      a.totalIncome + b.totalIncome,
      a.totalExpense + b.totalExpense,
      a.cashBalance + b.cashBalance,
      a.transferBalance + b.transferBalance,
      a.netBalance + b.netBalance)
  }

  /** What one record adds to each figure: an independent, per-record
      statement of the aggregator's meaning. */
  function Contribution(t: Transaction): SummaryStats
  {
    var income := if t.kind == Income then t.amount else 0.0;
    var expense := if t.kind == Expense then t.amount else 0.0;
    SummaryStats(
      income,
      expense,
      if t.payment == Cash then Signed(t) else 0.0,
      if t.payment == Transfer then Signed(t) else 0.0,
      income - expense)
  }

  lemma StatsOfOne(t: Transaction)
    ensures CalculateStats([t]) == Contribution(t)
  {
    SumBySingle(t, Amount);
    SumBySingle(t, Signed);
  }

  lemma StatsConcatFields(a: seq<Transaction>, b: seq<Transaction>)
    ensures CalculateStats(a + b).totalIncome == CalculateStats(a).totalIncome + CalculateStats(b).totalIncome
    ensures CalculateStats(a + b).totalExpense == CalculateStats(a).totalExpense + CalculateStats(b).totalExpense
    ensures CalculateStats(a + b).cashBalance == CalculateStats(a).cashBalance + CalculateStats(b).cashBalance
    ensures CalculateStats(a + b).transferBalance == CalculateStats(a).transferBalance + CalculateStats(b).transferBalance
  {
    FilteredSumConcat(a, b, IsIncome, Amount);
    FilteredSumConcat(a, b, IsExpense, Amount);
    FilteredSumConcat(a, b, PaidInCash, Signed);
    FilteredSumConcat(a, b, PaidByTransfer, Signed);
  }

  /** The summary of a concatenation is the sum of the summaries. */
  lemma StatsConcat(a: seq<Transaction>, b: seq<Transaction>)
    ensures CalculateStats(a + b) == Combine(CalculateStats(a), CalculateStats(b))
  {
    StatsConcatFields(a, b);
  }

  /** Appending one record adds exactly its contribution to every figure. */
  lemma StatsAppend(txs: seq<Transaction>, t: Transaction)
    ensures CalculateStats(txs + [t]) == Combine(CalculateStats(txs), Contribution(t))
  {
    StatsConcat(txs, [t]);
    StatsOfOne(t);
  }

  /** The aggregator agrees with the per-record reference definition on every input. */
  lemma {:induction false} StatsIsSumOfContributions(txs: seq<Transaction>)
    ensures CalculateStats(txs) == SumOfContributions(txs)
  {
    if |txs| > 0 {
      var init, t := txs[..|txs| - 1], txs[|txs| - 1];
      StatsIsSumOfContributions(init);
      StatsAppend(init, t);
      assert txs == init + [t];
    }
  }

  /** Reference definition: the record-by-record sum of contributions. */
  function SumOfContributions(txs: seq<Transaction>): SummaryStats
  {
    if |txs| == 0 then SummaryStats(0.0, 0.0, 0.0, 0.0, 0.0)
    else Combine(SumOfContributions(txs[..|txs| - 1]), Contribution(txs[|txs| - 1]))
  }

  /** `totalIncome` counts only incomes: appending an expense leaves it
      unchanged, and appending an income raises it by that amount. */
  lemma IncomeCountsOnlyIncomes(txs: seq<Transaction>, t: Transaction)
    ensures t.kind == Expense ==> CalculateStats(txs + [t]).totalIncome == CalculateStats(txs).totalIncome
    ensures t.kind == Income ==> CalculateStats(txs + [t]).totalIncome == CalculateStats(txs).totalIncome + t.amount
  {
    StatsAppend(txs, t);
  }

  /** `totalExpense` counts only expenses. */
  lemma ExpenseCountsOnlyExpenses(txs: seq<Transaction>, t: Transaction)
    ensures t.kind == Income ==> CalculateStats(txs + [t]).totalExpense == CalculateStats(txs).totalExpense
    ensures t.kind == Expense ==> CalculateStats(txs + [t]).totalExpense == CalculateStats(txs).totalExpense + t.amount
  {
    StatsAppend(txs, t);
  }

  /** The cash balance moves only with cash records, income up and expense down;
      the transfer balance likewise with transfer records. */
  lemma MethodBalancesAreSigned(txs: seq<Transaction>, t: Transaction)
    ensures CalculateStats(txs + [t]).cashBalance
         == CalculateStats(txs).cashBalance + (if t.payment == Cash then Signed(t) else 0.0)
    ensures CalculateStats(txs + [t]).transferBalance
         == CalculateStats(txs).transferBalance + (if t.payment == Transfer then Signed(t) else 0.0)
  {
    StatsAppend(txs, t);
  }

  /** The signed sum of the records paid by neither cash nor transfer. */
  function OtherBalance(txs: seq<Transaction>): real
  {
    SumBy(Filter(txs, PaidOtherwise), Signed)
  }

  /** The net balance splits exactly into the cash, transfer and `'Otro'` balances. */
  lemma {:induction false} NetSplitsByMethod(txs: seq<Transaction>)
    ensures CalculateStats(txs).cashBalance + CalculateStats(txs).transferBalance + OtherBalance(txs)
         == CalculateStats(txs).netBalance
  {
    if |txs| > 0 {
      var init, t := txs[..|txs| - 1], txs[|txs| - 1];
      assert txs == init + [t];
      NetSplitsByMethod(init);
      StatsAppend(init, t);
      var other := if t.payment == Other then Signed(t) else 0.0;
      assert OtherBalance([t]) == other by {
        SumBySingle(t, Signed);
        assert Filter([t], PaidOtherwise) == if PaidOtherwise(t) then [t] else [];
      }
      FilteredSumConcat(init, [t], PaidOtherwise, Signed);
      assert OtherBalance(txs) == OtherBalance(init) + other;
      var c := Contribution(t);
      assert c.cashBalance + c.transferBalance + other == c.netBalance;
    }
  }

  /** So cash plus transfer equals the net balance exactly when the `'Otro'`
      records cancel out, in particular when there are none. */
  lemma CashPlusTransferIsNet(txs: seq<Transaction>)
    ensures CalculateStats(txs).cashBalance + CalculateStats(txs).transferBalance == CalculateStats(txs).netBalance
        <==> OtherBalance(txs) == 0.0
    ensures (forall i :: 0 <= i < |txs| ==> txs[i].payment != Other) ==>
      CalculateStats(txs).cashBalance + CalculateStats(txs).transferBalance == CalculateStats(txs).netBalance
  {
    NetSplitsByMethod(txs);
    if forall i :: 0 <= i < |txs| ==> txs[i].payment != Other {
      FilterNone(txs, PaidOtherwise);
    }
  }

  /** A single `'Otro'` income is in the net balance but in neither method balance. */
  lemma OtherIsInNoMethodBalance(id: string, date: string, course: string, description: string)
    ensures var s := CalculateStats([Transaction(id, date, course, Income, 1.0, Other, description)]);
      s.netBalance == 1.0 && s.cashBalance == 0.0 && s.transferBalance == 0.0
  {
    StatsOfOne(Transaction(id, date, course, Income, 1.0, Other, description));
  }

  /** All five figures are invariant under reordering the input. */
  lemma StatsPermutation(a: seq<Transaction>, b: seq<Transaction>)
    requires multiset(a) == multiset(b)
    ensures CalculateStats(a) == CalculateStats(b)
  {
    FilterPermutation(a, b, IsIncome);
    FilterPermutation(a, b, IsExpense);
    FilterPermutation(a, b, PaidInCash);
    FilterPermutation(a, b, PaidByTransfer);
    SumByPermutation(Filter(a, IsIncome), Filter(b, IsIncome), Amount);
    SumByPermutation(Filter(a, IsExpense), Filter(b, IsExpense), Amount);
    SumByPermutation(Filter(a, PaidInCash), Filter(b, PaidInCash), Signed);
    SumByPermutation(Filter(a, PaidByTransfer), Filter(b, PaidByTransfer), Signed);
  }
}

=== FILE: strings.dfy ===
/** The JavaScript string operations the ledger relies on: relational
    comparison of strings and `startsWith`. */
module Strings {

  /** JavaScript's `a <= b` on strings: lexicographic comparison character by
      character, where a proper prefix comes first. (Dafny's own `<` on
      sequences is the proper-prefix relation, not this order.) */
  predicate StrLe(a: string, b: string)
  {
    if |a| == 0 then true
    else if |b| == 0 then false
    else if a[0] != b[0] then a[0] < b[0]
    else StrLe(a[1..], b[1..])
  }

  /** `s.startsWith(prefix)`. */
  predicate StartsWith(s: string, prefix: string)
  {
    |prefix| <= |s| && s[..|prefix|] == prefix
  }

  lemma {:induction false} StrLeReflexive(a: string)
    ensures StrLe(a, a)
  {
    if |a| > 0 {
      StrLeReflexive(a[1..]);
    }
  }

  lemma {:induction false} StrLeTotal(a: string, b: string)
    ensures StrLe(a, b) || StrLe(b, a)
  {
    if |a| > 0 && |b| > 0 && a[0] == b[0] {
      StrLeTotal(a[1..], b[1..]);
    }
  }

  lemma {:induction false} StrLeAntisymmetric(a: string, b: string)
    requires StrLe(a, b) && StrLe(b, a)
    ensures a == b
  {
    if |a| > 0 && |b| > 0 {
      StrLeAntisymmetric(a[1..], b[1..]);
      assert a == [a[0]] + a[1..];
      assert b == [b[0]] + b[1..];
    }
  }

  lemma {:induction false} StrLeTransitive(a: string, b: string, c: string)
    requires StrLe(a, b) && StrLe(b, c)
    ensures StrLe(a, c)
  {
    if |a| > 0 && |b| > 0 && |c| > 0 && a[0] == b[0] && b[0] == c[0] {
      StrLeTransitive(a[1..], b[1..], c[1..]);
    }
  }

  /** The order is decided by the first position where the strings differ. */
  lemma {:induction false} StrLeAtFirstDifference(a: string, b: string, k: nat)
    requires k < |a| && k < |b| && a[..k] == b[..k] && a[k] != b[k]
    ensures StrLe(a, b) <==> a[k] < b[k]
  {
    if k > 0 {
      assert a[0] == a[..k][0] && b[0] == b[..k][0];
      assert a[1..][..k - 1] == a[..k][1..];
      assert b[1..][..k - 1] == b[..k][1..];
      StrLeAtFirstDifference(a[1..], b[1..], k - 1);
    }
  }
}

=== FILE: types.dfy ===
/** The record types of the ledger: transaction kinds, payment methods, the
    transaction record itself and the five-figure summary. */
module Types {
  import opened Wrappers

  /** `TransactionType`: exactly the two values `'INCOME'` and `'EXPENSE'`. */
  datatype TxType = Income | Expense

  /** `PaymentMethod`: three members whose stored values are the strings given by `MethodLabel`. */
  datatype PaymentMethod = Cash | Transfer | Other

  /** The string each payment method is stored (and compared) as. */
  function MethodLabel(m: PaymentMethod): string
  {
    match m
    case Cash => "Efectivo"
    case Transfer => "Transferencia"
    case Other => "Otro"
  }

  /** Reads a stored method string back; `None` for a string that is no member's value. */
  function MethodOfLabel(s: string): (r: Option<PaymentMethod>)
    ensures r.Some? <==> s == "Efectivo" || s == "Transferencia" || s == "Otro"
    ensures r.Some? ==> MethodLabel(r.value) == s
  {
    if s == "Efectivo" then Some(Cash)
    else if s == "Transferencia" then Some(Transfer)
    else if s == "Otro" then Some(Other)
    else None
  }

  /** The stored strings identify the members: the enum survives a round trip through its values. */
  lemma MethodLabelRoundTrip(m: PaymentMethod)
    ensures MethodOfLabel(MethodLabel(m)) == Some(m)
  {
  }

  /** One ledger record. `course` holds the course for an income and the
      expense category for an expense. The source's `type` and `method`
      fields are `kind` and `payment` here, since those words are Dafny
      keywords. The optional `category` field is never set and is not
      modelled. */
  datatype Transaction = Transaction(
    id: string,
    date: string,
    course: string,
    kind: TxType,
    amount: real,
    payment: PaymentMethod,
    description: string)

  /** `SummaryStats`: exactly five numeric fields. */
  datatype SummaryStats = SummaryStats(
    totalIncome: real,
    totalExpense: real,
    cashBalance: real,
    transferBalance: real,
    netBalance: real)
}

=== FILE: wrappers.dfy ===
/** The optional-value type used wherever the source has an optional or
    possibly-missing value (`undefined`, `NaN`, a field the receipt reader
    did not return). */
module Wrappers {

  datatype Option<+T> = None | Some(value: T) {

    /** The wrapped value, or `default` when there is none. */
    function GetOr(default: T): T {
      match this
      case Some(v) => v
      case None => default
    }
  }
}
